=== FILE: README.md ===
# redFok relay core, modelled in Dafny

redFok is a presence-aware message relay. Clients open websocket sessions on
three endpoints:

- `/messaging` authenticates with a client id (a SHA-1 digest) and a
  username, joins the presence registry, flushes the user's mailbox, and then
  relays each received message to its recipients;
- `/registration` creates a user row and a mailbox table;
- `/deletion` removes both.

A recipient who is online gets the message pushed on their connection. A
recipient who is offline gets it appended to their mailbox table. A
supervisor pings the database. After four consecutive failed pings it closes
a one-way admission gate, waits for the registry to drain, and exits.

This project states that core over immutable data and proves properties of
it.

- **State.** `Controller.State` pairs the presence registry
  (username → connection) with `Store.Store`. The store is the
  `tbl_users` rows, indexed by username and by client id, plus one mailbox
  per user.
- **Outcomes.** Every session handler is a pure function from a state, a
  connection and an oracle record to a `Controller.Outcome`. An outcome is
  the new state plus the trace of visible events, in order: `Reply` (a
  response flag), `Push` (a message sent to a client), `Enqueue` and
  `Dequeue` (mailbox writes), and `Close`.
- **Oracles.** Each external call's result comes from an oracle:
  - receiving and decoding a frame;
  - each websocket send;
  - each store statement that can fail;
  - the ping sequence.
- **Sequential goroutines.** The goroutines the source spawns for deliveries
  run, in the model, at their spawn point.

Modules follow the source layout:

| module | models |
|---|---|
| `Common` | bytes, options, timestamps |
| `Text` | `strings.TrimSpace` over ASCII whitespace |
| `Wire` | `server/dataType/messageTypes.go` |
| `Store` | the database's data semantics from `server/database/dbHandler.go` |
| `Controller` | `server/handler/controller.go` |
| `MessengerHandler`, `RegisterHandler`, `DeleterHandler` | the three handlers |
| `Watcher` | `server/dbConnWatcher.go` |
| `Server` | `server/server.go` |

The model keeps two behaviours of the source exactly as written:

- **The sender is whatever the frame says.** The sender of a relayed message
  is the `Sender` field the client wrote. It is never compared with the name
  the session authenticated (`MessengerHandler.SpoofedSenderEvicted`,
  `MessengerHandler.FanOutClaimedSender`).
- **Registry removal is keyed by name only.** A deletion session therefore
  evicts the same user's live messaging session without closing its
  connection (`DeleterHandler.DeleterEvictsLiveSession`,
  `Controller.RemoveIgnoresStoredHandle`).

Four further details of the code are modelled as written:

- The code accepts a message whose recipient list is present but empty
  (`server/handler/messenger.go:86-89` refuses only an absent, `nil`, list).
  Such a message passes validation and is delivered to nobody
  (`MessengerHandler.MessageValidator`).
- The code's username check in authentication refuses only the space byte,
  not every whitespace byte (`server/handler/controller.go:77`). Registration
  trims all whitespace before its emptiness check
  (`server/handler/register.go:121-122`). So a username made of one tab
  authenticates but cannot register
  (`RegisterHandler.AuthenticationLaxerThanRegistration`).
- The code creates a mailbox with `CREATE TABLE IF NOT EXISTS`
  (`server/database/dbHandler.go:189`). It therefore keeps a mailbox that a
  failed `DROP TABLE` left behind, and a new user who registers the same
  username inherits the old rows
  (`RegisterHandler.RegisterKeepsLeftoverMailbox`).
- The code of `server/server.go` calls `handler.InitController`, but the
  handler package defines `InitNewController`. The model's start-up
  (`Server.Startup`) builds the initial state directly.

## Model

| member | source | states |
|---|---|---|
| Text.TrimSpace | server/handler/messenger.go:97 | the trimmed text is no longer than the input and begins and ends with a byte that is not whitespace |
| Text.TrimSpaceInfix | server/handler/messenger.go:97 | the trim is the part of the input that follows the leading whitespace, and everything around it in the input is whitespace |
| Text.TrimSpaceEmptyIffAllSpace | server/handler/messenger.go:97-100 | the trimmed text is empty exactly when the input is all whitespace |
| Text.TrimSpaceIdempotent | server/handler/register.go:77 | trimming a trimmed value changes nothing |
| Text.TrimSpaceFixesTrimmed | server/handler/register.go:121-122 | a value with no whitespace at either end is its own trim |
| Wire.Code | server/dataType/messageTypes.go:13-20 | every response flag travels as a three-character code, and that code reads back as the same flag |
| Wire.CodesDistinct | server/dataType/messageTypes.go:13-20 | two different flags never share a code |
| Wire.WithNameCredentials | server/dataType/messageTypes.go:31-44 | a registration is an authentication plus a display name: adding a name and taking the credentials back returns the credentials |
| Wire.Forwarded | server/dataType/messageTypes.go:52-68 | a forwarded message keeps the timestamp, text and sender, and drops only the recipient list |
| Wire.AddressedForwarded | server/handler/messenger.go:140-144 | re-addressing a received message and forwarding it again gives back the same message |
| Store.UserNameOf | server/database/dbHandler.go:60-71 | the lookup by client id finds a name exactly when the id is stored, and the row of that name carries that id |
| Store.InsertUser | server/database/dbHandler.go:160-169 | a taken username or client id is a duplicate-key error that leaves the store unchanged; a successful insert adds the row under both keys and keeps the indexes consistent |
| Store.CreateUserTable | server/database/dbHandler.go:187-198 | afterwards the user has a mailbox; an existing mailbox keeps its rows; nothing else changes |
| Store.InsertMessage | server/database/dbHandler.go:105-114 | appends the row to the user's mailbox; fails exactly when the mailbox table is missing |
| Store.GetMessages | server/database/dbHandler.go:118-142 | lists the mailbox's rows as a multiset; fails exactly when the mailbox table is missing |
| Store.WithoutMembers | server/database/dbHandler.go:148-150 | a delete keeps exactly the rows that differ from the given message, each with all its copies, and removes every copy of that message |
| Store.DeleteMessage | server/database/dbHandler.go:146-156 | removes every row equal to the message on all three fields and touches nothing else; fails exactly when the mailbox table is missing |
| Store.DeleteUserRow | server/database/dbHandler.go:209-212 | the user's row leaves both indexes, every other row stays, and the mailboxes are untouched |
| Store.DeleteUserAndTable | server/database/dbHandler.go:204-220 | two non-atomic statements: a failed row delete changes nothing; a failed or missing-table drop leaves the row deleted and the mailbox in place; full success removes both |
| Controller.AddOnlineClient | server/handler/controller.go:38-45 | the user is online on the given connection, replacing any earlier entry, and every other entry is unchanged |
| Controller.RemoveAndCloseOnlineClient | server/handler/controller.go:50-57 | the user is offline, every other entry and the store are unchanged, and the connection passed in is closed |
| Controller.OnlineClientsLen | server/handler/controller.go:165-170 | the count is the number of users in the registry |
| Controller.EmptyRegistryNobodyOnline | server/handler/controller.go:140-170 | the registry's count is zero exactly when `checkIsClientOnline` finds nobody online |
| Controller.AddOnlineClientLen | server/handler/controller.go:38-45 | adding grows the registry by one exactly when the user was offline |
| Controller.RemoveAndCloseLen | server/handler/controller.go:50-57 | removing shrinks the registry by one exactly when the user was online; removing an absent user changes no state; removing twice leaves the same state as removing once |
| Controller.RemoveIgnoresStoredHandle | server/handler/controller.go:54-55 | an entry holding another connection is dropped all the same, and that other connection is not closed |
| Controller.ValidateAuthentication | server/handler/controller.go:62-82 | accepts exactly a present 20-byte client id other than the SHA-1 digest of empty input, together with a non-empty username of at most 50 bytes and no space byte |
| Controller.UserNameBoundary | server/handler/controller.go:73-79 | a 50-byte username passes and a 51-byte one fails; a space anywhere fails |
| Controller.CheckAuthentication | server/handler/controller.go:87-135 | a name is returned exactly for authentic credentials when both store calls succeed, and it equals both the supplied and the stored name; a decode or validation failure or a store error sends nothing; exactly one `IAT` is sent for an unknown id or a mismatched name |
| RegisterHandler.ValidateRegistration | server/handler/register.go:115-139 | accepts exactly when the trimmed display name and username are non-empty, the client id is valid, both untrimmed names are at most 50 bytes, and the username has no space byte |
| RegisterHandler.ValidRegistrationAuthenticates | server/handler/register.go:115-139 | every registration that validation accepts carries credentials that authentication accepts |
| RegisterHandler.AuthenticationLaxerThanRegistration | server/handler/register.go:121-122 | a one-tab username passes authentication but not registration |
| RegisterHandler.NameLimitIsUntrimmed | server/handler/register.go:128-132 | the 50-byte limit applies to the untrimmed display name: a name whose stored trimmed form is 49 bytes is still refused |
| RegisterHandler.Interleave | server/handler/register.go:70-71 | a registration that commits between this session's checks and its insert only adds rows and keeps the store consistent |
| RegisterHandler.Enroll | server/handler/register.go:74-108 | a duplicate key gives `IUN`, any other insert error gives no response, a failed table creation keeps the row without `APV`, and `APV` follows both writes; the stored name is the trimmed display name |
| RegisterHandler.Screen | server/handler/register.go:38-68 | a known client id gives `ART` before the username is checked; a failed username check closes silently; a taken username gives `IUN`; the registry never changes |
| RegisterHandler.Register | server/handler/register.go:16-113 | a decode failure, a validation failure or a failed id check closes the connection with no response and no change; the registry is never touched; store consistency is kept |
| RegisterHandler.RegisterAlreadyRegistered | server/handler/register.go:44-52 | `ART` is sent exactly when the client id is known, whatever the username, and then the store is unchanged |
| RegisterHandler.RegisterNameCheckFails | server/handler/register.go:54-59 | a store error in the username check closes the connection without a response or change |
| RegisterHandler.RegisterInvalidUserName | server/handler/register.go:60-89 | `IUN` is sent exactly when the client id lookup finds no row and either the username check finds the name taken or the insert meets a duplicate key, which includes a rival registration that took only the client id in between; `IUN` never comes with `APV` |
| RegisterHandler.RegisterApproves | server/handler/register.go:74-108 | `APV` is sent exactly when every check and both writes succeed, and then the row (with the trimmed name) is indexed by username and id and the user has a mailbox |
| RegisterHandler.RegisterLeavesRow | server/handler/register.go:96-101 | when the table creation fails after the insert, the row stays and no `APV` is sent |
| RegisterHandler.RegisterThenAuthenticate | server/handler/register.go:103-108 | after an `APV` the registered credentials authenticate to the registered username |
| RegisterHandler.RegisterKeepsLeftoverMailbox | server/handler/register.go:96 | registering a username whose mailbox table still exists keeps that mailbox's rows |
| DeleterHandler.Deleter | server/handler/deleter.go:10-34 | an authentication failure closes the connection and changes nothing; otherwise the store reflects the two delete statements, the username leaves the registry, and `APV` precedes the close exactly when both deletes succeeded |
| DeleterHandler.DeleterRemoves | server/handler/deleter.go:18-30 | past authentication the user is offline, every other entry is unchanged, the close comes last, and `APV` is sent exactly when the row and the table are both gone |
| DeleterHandler.DeleterPartial | server/handler/deleter.go:18-23 | when the row goes but the table drop fails, only the close is sent and the mailboxes are left as they were |
| DeleterHandler.DeleterEvictsLiveSession | server/handler/deleter.go:30 | deleting an account evicts the user's live messaging entry held on another connection, and that connection is not closed |
| DeleterHandler.DeletedCannotAuthenticate | server/handler/deleter.go:18-25 | after the row delete, the same credentials meet an unknown client id and get `IAT` |
| MessengerHandler.MessageValidator | server/handler/messenger.go:84-103 | accepts exactly a non-empty sender, a present recipient list with no empty name, and text that is not all whitespace; an accepted message continues with its text trimmed |
| MessengerHandler.MessageValidatorIdempotent | server/handler/messenger.go:97-102 | a validated message passes validation again unchanged |
| MessengerHandler.DeliverMessage | server/handler/messenger.go:171 | a delivery always starts with the push attempt on the given connection |
| MessengerHandler.DeliverMessageEvents | server/handler/messenger.go:169-186 | a successful push changes nothing; a failed push appends the message to the mailbox when the insert succeeds, removes the user, and closes the connection last |
| MessengerHandler.DeliverMessageFrame | server/handler/messenger.go:169-186 | a delivery removes at most the recipient from the registry and leaves the user rows and the set of mailboxes alone |
| MessengerHandler.FirstDeleteFailure | server/handler/messenger.go:39-45 | the flush loop's exit index: every delete before it succeeds, and the delete at it fails unless it is the end |
| MessengerHandler.FlushDequeuesFirst | server/handler/messenger.go:39-53 | every push of the flush goes out on the session's connection right after the mailbox delete of the same message |
| MessengerHandler.FlushPushesPrefix | server/handler/messenger.go:38-55 | exactly the listed messages before the first failed delete are pushed, in order, once each |
| MessengerHandler.FlushDeleteFailure | server/handler/messenger.go:40-45 | a failed delete leaves the user offline and closes the connection as the last event |
| MessengerHandler.Flush | server/handler/messenger.go:38-55 | the flush loop leaves the registry as it was or without the session's own user, and leaves the user rows and the set of mailboxes alone |
| MessengerHandler.FlushKeepsUnprocessed | server/handler/messenger.go:40-45 | a mailbox message the loop never reached stays in the mailbox |
| MessengerHandler.FlushPurges | server/handler/messenger.go:38-55 | when every delete and push succeeds, the mailbox keeps exactly the rows equal to none of the flushed messages, each of them with all its copies |
| MessengerHandler.Dispatch | server/handler/messenger.go:138-157 | an online recipient gets the message pushed on its registered connection, and the delivery pushes exactly that one message; an offline one gets it appended to its mailbox and nothing is pushed; a failed insert removes the claimed sender; only the forwarded message is carried and no flag is sent |
| MessengerHandler.Acknowledge | server/handler/messenger.go:159-165 | the flag is sent on the sending connection and nothing is pushed; a failed send removes the sender and closes the connection |
| MessengerHandler.Visit | server/handler/messenger.go:118-166 | a failed existence check removes the sender and stops the loop; an unknown recipient is answered `NSU` exactly when the sender is online; a known one gets its delivery, followed by `RCV` when the sender is still online after it (the delivery goroutine runs at its spawn point) |
| MessengerHandler.VisitDeliversOnce | server/handler/messenger.go:138-157 | a recipient loop iteration pushes the forwarded message exactly once when the recipient is registered and online, and pushes nothing otherwise |
| MessengerHandler.FanOut | server/handler/messenger.go:118-166 | the recipient loop only removes users from the registry and leaves the user rows and the set of mailboxes alone |
| MessengerHandler.MessageHandler | server/handler/messenger.go:105-167 | an invalid message does nothing; a message addressed to its own sender removes that sender and closes the connection without any lookup, response or delivery |
| MessengerHandler.FanOutAbortCloses | server/handler/messenger.go:120-125 | a failed existence check for any recipient leaves the sender offline, with the sending connection closed last |
| MessengerHandler.FanOutAbortCut | server/handler/messenger.go:120-125 | the recipients after a failed existence check are never looked up, answered or delivered to |
| MessengerHandler.VisitBenign | server/handler/messenger.go:126-165 | when nothing fails, one recipient earns exactly one acknowledgement: `RCV` if registered, `NSU` otherwise |
| MessengerHandler.FanOutAcks | server/handler/messenger.go:118-166 | when nothing fails and the sender is online and not addressed, the sender gets one acknowledgement per recipient, in order, and stays online |
| MessengerHandler.FanOutClaimedSender | server/handler/messenger.go:138-165 | everything delivered is the forwarded message with the client-written sender; a sender that is not online gets no acknowledgement while deliveries still happen |
| MessengerHandler.MessageHandlerFansOut | server/handler/messenger.go:107-118 | a valid message not addressed to its sender goes through the recipient loop with its trimmed text, in the original recipient order |
| MessengerHandler.MessageHandlerAcks | server/handler/messenger.go:105-167 | one acknowledgement per recipient, in order, for a whole message whose calls all succeed |
| MessengerHandler.SpoofedSenderEvicted | server/handler/messenger.go:111-116 | a session that names another online user as sender and addresses that user evicts that user without closing that user's connection |
| MessengerHandler.ReceiveFailed | server/handler/messenger.go:64-71 | a failed receive leaves the user offline, and closes the connection only when the user was still online |
| MessengerHandler.RunReceiver | server/handler/messenger.go:60-82 | the session ends with its user offline, having only removed users from the registry and kept the user rows and the set of mailboxes |
| MessengerHandler.RunReceiverHandles | server/handler/messenger.go:62-81 | every decoded frame is handed to `messageHandler`: the session's events begin with that handler's events, and unless the handler closed the connection the loop receives the next frame from the state the handler left |
| MessengerHandler.RunReceiverRelaysOffline | server/handler/messenger.go:62-166 | a benign frame addressed to one registered, offline user appends the forwarded message to that user's mailbox and answers the sender `RCV`, and the session then goes on to its next frame, from the state `StoreAndForward` starts from |
| MessengerHandler.RunReceiverDecodeFailure | server/handler/messenger.go:72-78 | an undecodable frame removes the user, closes the connection, and ends the session whatever frames follow |
| MessengerHandler.FlushThenReceive | server/handler/messenger.go:37-57 | after the mailbox listing, flushing and then receiving ends with the user offline and changes no other registry entry, the user rows or the set of mailboxes |
| MessengerHandler.Messenger | server/handler/messenger.go:12-58 | an authentication failure or an already-online user closes the connection and changes nothing; a joined session sends `APV` first and ends with the user offline; a failed `APV` send, `ChangeIP` or mailbox listing ends the session with just `APV` and the close and leaves the state as it was; otherwise the registry only loses entries, and the user rows and the set of mailboxes stay |
| MessengerHandler.MessengerFlushesFirst | server/handler/messenger.go:37-55 | right after the `APV` the session runs the flush of the whole mailbox, in which every push follows the delete of its message |
| MessengerHandler.CleanFlushDelivers | server/handler/messenger.go:38-55 | when every delete and push succeeds, each listed message is pushed on the session's connection and no copy of it stays in the mailbox |
| MessengerHandler.CleanSessionDelivers | server/handler/messenger.go:12-55 | a session that authenticates, joins and flushes without a failure pushes every message of its mailbox on its own connection, and the flush leaves no copy of it behind |
| MessengerHandler.StoreAndForward | server/handler/messenger.go:37-157 | a message for a recipient who is offline but has a mailbox is appended to that mailbox, and the recipient's next failure-free session pushes it on its own connection and removes it from the mailbox |
| Watcher.PGateCheck | server/dbConnWatcher.go:58-67 | reports exactly the gate flag |
| Watcher.CloseGate | server/dbConnWatcher.go:23-25 | the only write to the gate leaves it closed |
| Watcher.GateOneWay | server/dbConnWatcher.go:22-25 | after any history of writes the gate is open exactly when it was open and nothing was written, so a closed gate never reopens |
| Watcher.DisconnectVerifier | server/dbConnWatcher.go:35-45 | confirms exactly when three pings in a row fail, and otherwise stops at the first successful ping |
| Watcher.DbConnWatcher | server/dbConnWatcher.go:16-33 | the gate closes exactly at the first run of four consecutive failed pings; while it stays open no four consecutive pings failed |
| Watcher.WaitToEmptyOnlineClients | server/dbConnWatcher.go:47-56 | polls the registry through `OnlineClientsLen` and returns at the first poll whose registry is empty, never while every registry seen has someone online |
| Watcher.Supervise | server/dbConnWatcher.go:16-33 | the process exits exactly when the gate is closed and some polled registry was empty, and a closed gate means four consecutive pings failed |
| Server.PathOf | server/server.go:26-54 | each endpoint's path routes back to that endpoint |
| Server.RouteExact | server/server.go:26-54 | a path reaches an endpoint only when it is exactly that endpoint's path |
| Server.Admit | server/server.go:28-33 | a closed gate closes the connection and runs no handler; an open gate runs the endpoint's handler |
| Server.Handle | server/server.go:26-54 | whichever endpoint's handler runs, it never leaves online a user who was not online before, and it keeps the user rows' two indexes consistent |
| Server.Serve | server/server.go:26-54 | a connection is served exactly on the three mounted paths, and then goes through the gate check |
| Server.CreateDBConnection | server/database/dbHandler.go:44-56 | an open failure is an error; a failed ping gives neither a handle nor an error; otherwise the handle is returned |
| Server.Startup | server/server.go:16-23 | serving starts exactly when the connection succeeds and yields a handle, with the gate open and the registry empty |
| Server.StartupAdmits | server/server.go:23-33 | a freshly started server admits connections on every endpoint |

## Left out

- Websocket I/O, JSON encoding and decoding, and the response send are not
  modelled. Each is a success or failure oracle, and timestamps are opaque
  integers. The `TimeStamp.String() == ""` check can never hold, so it is
  dropped.
- SHA-1 is not modelled. Only the digest of empty input appears, as a
  constant.
- Logging, the beeper, the printed messages, the sleeps, `os.Exit` and
  `log.Fatalln` are left out. Exiting is a boolean result, and a fatal
  start-up is `None`.
- Concurrency is not modelled.
  - Mutexes are implicit.
  - Each session, and each delivery goroutine, runs sequentially at its
    spawn point.
  - The receiver spawns `go c.messageHandler(...)` for every frame
    (`server/handler/messenger.go:80`). In the model (`RunReceiver`) each
    message is handled in full before the next receive, and a handler that
    closes the connection ends the loop. In the source the handlers of
    successive messages run alongside each other and the next receive, so
    their acknowledgements can interleave.
  - In `Messenger`, the "already online" check and the add are separate
    critical sections, so two simultaneous logins can both pass the check.
    The model runs them one after the other and claims no atomicity.
  - A rival registration that commits between the checks and the insert is
    the `Interleave` oracle.
- `ChangeIP` is modelled only through its failure. The IP column is not
  part of the user rows.
- `strings.TrimSpace` is modelled over ASCII whitespace only. Multi-byte
  Unicode spaces are not modelled.
- `Store.GetMessages` returns the rows in one permitted order, the stored
  order. The database promises no order.
- Go runtime panics are not modelled:
  - the `*mysql.MySQLError` type assertion on a non-MySQL insert error;
  - slicing `RemoteAddr` when it has no `':'`.
- SQL text, table names built by concatenating `"tbl_"`, and the database's
  own failures are left out. Store failures are oracle flags.
- The watcher loop is bounded by a number of rounds, and the drain by a
  finite sequence of observed registries. The source loops forever.
  - Watcher.DbConnWatcher: states nothing about rounds beyond the bound.
  - Watcher.WaitToEmptyOnlineClients: states nothing about polls beyond the
    observed registries.
- MessengerHandler.RunReceiver: only sessions whose receive eventually
  fails are represented. The frames are a finite sequence, while the source
  loops until a receive error (`server/handler/messenger.go:60-82`).
- client/client.go, a terminal test client, is not part of this model.
- The older package-main copies of the handlers under `server/` are not
  part of this model. They do not compile as written. The `server/handler/`
  versions are modelled.
- Store.InsertUser: assumes that `tbl_users` has unique keys on both the
  username and the client id. No schema is part of the source; the
  duplicate-key branch of `server/handler/register.go:80-89` and the comment
  at `server/database/dbHandler.go:10` imply the keys but do not name them.
- MessengerHandler.Visit: sends `RCV` only after the delivery has run. In the
  source the delivery is a goroutine (`server/handler/messenger.go:138`), so
  `RCV` can go out before it runs. A sender can thus get `RCV` for a message
  whose offline insert then fails, and a failed insert can remove the sender
  after the `RCV` check. The model shows none of these orderings.
- MessengerHandler.VisitDeliversOnce: the goroutine's own online check sees
  the registry at the moment it runs, so in the source the registry that
  decides push or insert may differ from the one the loop saw.
- MessengerHandler.FlushDequeuesFirst: each push of the flush is a goroutine
  (`server/handler/messenger.go:47-53`). The source guarantees only that a
  push starts after the delete of its message, not that it comes right
  after it; later deletes and other pushes may come in between.
- MessengerHandler.FlushPushesPrefix: the listed order of the pushes holds
  under the model's spawn-point ordering only. In the source the pushes of a
  flush may go out in any order and may interleave with the receiver's
  sends; that each message before the first failed delete is pushed once
  still holds.
- MessengerHandler.MessengerFlushesFirst: the flush's events follow the
  `APV` as one block only under the spawn-point ordering; in the source the
  pushes may interleave with the receiver loop's events.
- MessengerHandler.StoreAndForward: the mailbox's `timeStamp` column is a
  `DATETIME` with no fractional seconds (`server/database/dbHandler.go:190`).
  A message that goes through the mailbox is read back with its timestamp
  rounded to whole seconds. A live push carries the sender's original one.
  The model keeps stored timestamps exactly, so the lemma's pushed message
  equals the forwarded one.
- Store.InsertMessage: fails only when the mailbox table is missing. The
  `sender VARCHAR(50)` column (`server/database/dbHandler.go:192`) can also
  refuse or cut a longer client-written sender, depending on the database's
  SQL mode; that is not modelled.
- MessengerHandler.DeliverMessage: its own contract states only that the
  push comes first. The full effect is stated by
  `MessengerHandler.DeliverMessageEvents` and
  `MessengerHandler.DeliverMessageFrame`.

=== FILE: common.dfy ===
/** Shared vocabulary of the relay model: Go byte strings, optional values
    (Go's nil slices) and the opaque message timestamp. */
module Common {

  /** A Go byte. Go strings and `[]byte` values are sequences of these, so
      `len` counts bytes, not characters. */
  newtype byte = x: int | 0 <= x < 256

  type Bytes = seq<byte>

  /** `time.Time` is only copied and compared for equality by the relay, so
      an integer stands for it. */
  type Time = int

  /** A value that may be absent: a nil slice, a failed decode, a missing row. */
  datatype Option<+T> = None | Some(value: T)
}

=== FILE: controller.dfy ===
/** The controller: the presence registry (username → live connection), the
    observable effects every session handler produces, and the
    authentication handshake shared by the messaging and deletion sessions. */
module Controller {
  import opened Common
  import opened Text
  import opened Wire
  import opened Store

  /** A websocket connection, by identity. */
  type Conn = nat

  /** The presence registry: which users are online, on which connection. */
  type Online = map<Bytes, Conn>

  /** The shared state the handlers act on: the registry and the store. */
  datatype State = State(online: Online, db: Store)

  /** What a handler does that the outside world can see, in order. `Reply`
      and `Push` are send attempts; the transport oracle decides whether
      they get through. `Enqueue` and `Dequeue` are mailbox writes that
      succeeded. */
  datatype Event =
    | Reply(conn: Conn, flag: Flag)
    | Push(conn: Conn, message: MessageData)
    | Enqueue(user: Bytes, message: MessageData)
    | Dequeue(user: Bytes, message: MessageData)
    | Close(conn: Conn)

  /** The state a step leaves behind and the events it produced. */
  datatype Outcome = Outcome(state: State, trace: seq<Event>)

  /** Runs `next` after `first`: the traces are concatenated. */
  function Then(first: seq<Event>, next: Outcome): (r: Outcome)
    ensures r.state == next.state && |r.trace| == |first| + |next.trace|
  {
    Outcome(next.state, first + next.trace)
  }

  /** A run that ends with `next` ends with `next`'s last event. */
  lemma ThenLast(first: seq<Event>, next: Outcome)
    requires next.trace != []
    ensures Then(first, next).trace[|Then(first, next).trace| - 1] == next.trace[|next.trace| - 1]
  {
  }

  /** The messages of the `Push` events of a trace, in order. */
  function Pushes(t: seq<Event>): (r: seq<MessageData>)
    ensures |r| <= |t|
  {
    if t == [] then []
    else (if t[0].Push? then [t[0].message] else []) + Pushes(t[1..])
  }

  /** The flags replied on `conn` in a trace, in order. */
  function Acks(t: seq<Event>, conn: Conn): (r: seq<Flag>)
    ensures |r| <= |t|
  {
    if t == [] then []
    else (if t[0].Reply? && t[0].conn == conn then [t[0].flag] else []) + Acks(t[1..], conn)
  }

  /** The pushed messages of two traces in a row are those of each, in order. */
  lemma {:induction false} PushesAppend(a: seq<Event>, b: seq<Event>)
    ensures Pushes(a + b) == Pushes(a) + Pushes(b)
  {
    if a != [] {
      assert (a + b)[0] == a[0] && (a + b)[1..] == a[1..] + b;
      PushesAppend(a[1..], b);
    } else {
      assert a + b == b;
    }
  }

  /** A message is among a trace's pushes exactly when some event of the
      trace pushes it. */
  lemma {:induction false} PushesMembers(t: seq<Event>, m: MessageData)
    ensures m in Pushes(t) <==> exists j :: 0 <= j < |t| && t[j].Push? && t[j].message == m
  {
    if t != [] {
      var tail := t[1..];
      PushesMembers(tail, m);
      if exists j :: 0 <= j < |tail| && tail[j].Push? && tail[j].message == m {
        var j :| 0 <= j < |tail| && tail[j].Push? && tail[j].message == m;
        assert t[j + 1] == tail[j];
      }
      if exists j :: 0 <= j < |t| && t[j].Push? && t[j].message == m {
        var j :| 0 <= j < |t| && t[j].Push? && t[j].message == m;
        if j > 0 {
          assert tail[j - 1] == t[j];
        }
      }
    }
  }

  /** A flag is among the replies on `conn` exactly when some event of the
      trace replies it on `conn`. */
  lemma {:induction false} AcksMembers(t: seq<Event>, conn: Conn, f: Flag)
    ensures f in Acks(t, conn) <==> exists j :: 0 <= j < |t| && t[j].Reply? && t[j].conn == conn && t[j].flag == f
  {
    if t != [] {
      var tail := t[1..];
      AcksMembers(tail, conn, f);
      if exists j :: 0 <= j < |tail| && tail[j].Reply? && tail[j].conn == conn && tail[j].flag == f {
        var j :| 0 <= j < |tail| && tail[j].Reply? && tail[j].conn == conn && tail[j].flag == f;
        assert t[j + 1] == tail[j];
      }
      if exists j :: 0 <= j < |t| && t[j].Reply? && t[j].conn == conn && t[j].flag == f {
        var j :| 0 <= j < |t| && t[j].Reply? && t[j].conn == conn && t[j].flag == f;
        if j > 0 {
          assert tail[j - 1] == t[j];
        }
      }
    }
  }

  /** The acknowledgements of two traces in a row are those of each, in order. */
  lemma {:induction false} AcksAppend(a: seq<Event>, b: seq<Event>, conn: Conn)
    ensures Acks(a + b, conn) == Acks(a, conn) + Acks(b, conn)
  {
    if a != [] {
      assert (a + b)[0] == a[0] && (a + b)[1..] == a[1..] + b;
      AcksAppend(a[1..], b, conn);
    } else {
      assert a + b == b;
    }
  }

  // ----- presence registry -------------------------------------------------

  /** `addOnlineClient`: the user is now online on `conn`, replacing any
      previous entry; every other entry is untouched. */
  function AddOnlineClient(online: Online, conn: Conn, userName: Bytes): (r: Online)
    ensures userName in r && r[userName] == conn
    ensures forall u :: u != userName ==> (u in r <==> u in online)
    ensures forall u :: u != userName && u in online ==> r[u] == online[u]
  {
    online[userName := conn]
  }

  /** `removeAndCloseOnlineClient`: drops the user's entry, whatever
      connection it holds, and closes `conn`, the connection the caller
      passed, not the one the entry held. Every other entry is untouched and
      the store is unchanged. */
  function RemoveAndCloseOnlineClient(st: State, conn: Conn, userName: Bytes): (r: Outcome)
    ensures userName !in r.state.online
    ensures forall u :: u != userName ==> (u in r.state.online <==> u in st.online)
    ensures forall u :: u != userName && u in st.online ==> r.state.online[u] == st.online[u]
    ensures r.state.db == st.db
    ensures r.trace == [Close(conn)]
  {
    Outcome(st.(online := st.online - {userName}), [Close(conn)])
  }

  /** `after` keeps some of the entries of `before`, unchanged, and adds
      none: what a step that only ever removes users does to the registry. */
  predicate SubRegistry(after: Online, before: Online) {
    forall u :: u in after ==> u in before && after[u] == before[u]
  }

  /** `checkIsClientOnline`. */
  predicate CheckIsClientOnline(online: Online, userName: Bytes) {
    userName in online
  }

  /** `OnlineClientsLen`: the number of users online. */
  function OnlineClientsLen(online: Online): (n: nat)
    ensures n == |online.Keys|
  {
    |online|
  }

  /** The registry counts as empty exactly when `checkIsClientOnline`
      finds nobody in it. */
  lemma EmptyRegistryNobodyOnline(online: Online)
    ensures OnlineClientsLen(online) == 0 <==> forall u :: !CheckIsClientOnline(online, u)
  {
    if OnlineClientsLen(online) != 0 {
      var u :| u in online.Keys;
      assert CheckIsClientOnline(online, u);
    }
  }

  /** Adding a user grows the registry by one exactly when that user was
      offline, and makes the user online. */
  lemma AddOnlineClientLen(online: Online, conn: Conn, userName: Bytes)
    ensures CheckIsClientOnline(AddOnlineClient(online, conn, userName), userName)
    ensures OnlineClientsLen(AddOnlineClient(online, conn, userName))
         == OnlineClientsLen(online) + (if CheckIsClientOnline(online, userName) then 0 else 1)
  {
    var r := AddOnlineClient(online, conn, userName);
    if userName in online {
      assert r.Keys == online.Keys;
    } else {
      assert r.Keys == online.Keys + {userName};
    }
  }

  /** Removing a user shrinks the registry by one exactly when that user was
      online, and makes the user offline. Removing twice is removing once:
      the second removal changes no entry and only closes `conn` again. */
  lemma RemoveAndCloseLen(st: State, conn: Conn, userName: Bytes)
    ensures !CheckIsClientOnline(RemoveAndCloseOnlineClient(st, conn, userName).state.online, userName)
    ensures OnlineClientsLen(RemoveAndCloseOnlineClient(st, conn, userName).state.online)
         == OnlineClientsLen(st.online) - (if CheckIsClientOnline(st.online, userName) then 1 else 0)
    ensures !CheckIsClientOnline(st.online, userName) ==>
              RemoveAndCloseOnlineClient(st, conn, userName).state == st
    ensures var once := RemoveAndCloseOnlineClient(st, conn, userName).state;
            RemoveAndCloseOnlineClient(once, conn, userName).state == once
  {
    var r := RemoveAndCloseOnlineClient(st, conn, userName).state.online;
    if userName in st.online {
      assert r.Keys == st.online.Keys - {userName};
    } else {
      assert r.Keys == st.online.Keys;
      assert r == st.online;
    }
  }

  /** Removal is keyed by name only: an entry that holds another connection
      is dropped all the same, and that other connection is not closed. */
  lemma RemoveIgnoresStoredHandle(st: State, conn: Conn, userName: Bytes)
    requires CheckIsClientOnline(st.online, userName) && st.online[userName] != conn
    ensures var r := RemoveAndCloseOnlineClient(st, conn, userName);
      !CheckIsClientOnline(r.state.online, userName) && Close(st.online[userName]) !in r.trace
  {
  }

  // ----- authentication ----------------------------------------------------

  /** `sha1.Size`. */
  const Sha1Size := 20

  /** The SHA-1 digest of the empty input (FIPS 180-4),
      da39a3ee5e6b4b0d3255bfef95601890afd80709. */
  const EmptySha1: Bytes := [
    0xda, 0x39, 0xa3, 0xee, 0x5e, 0x6b, 0x4b, 0x0d, 0x32, 0x55,
    0xbf, 0xef, 0x95, 0x60, 0x18, 0x90, 0xaf, 0xd8, 0x07, 0x09]

  /** The longest username and display name the relay accepts, in bytes. */
  const MaxNameLength := 50

  /** A client id the relay accepts: present, a SHA-1 sized digest, and not
      the digest of nothing. */
  predicate ValidClientID(id: Option<Bytes>) {
    id.Some? && |id.value| == Sha1Size && id.value != EmptySha1
  }

  /** A username the relay accepts: non-empty, at most 50 bytes, no space
      byte. Other whitespace bytes are allowed. */
  predicate ValidUserName(u: Bytes) {
    u != [] && |u| <= MaxNameLength && Space !in u
  }

  /** `validateAuthentication`: the three checks in the source's order. */
  function ValidateAuthentication(auth: Authentication): (ok: bool)
    ensures ok <==> ValidClientID(auth.clientID) && ValidUserName(auth.userName)
  {
    if auth.userName == [] || auth.clientID.None? || auth.clientID.value == EmptySha1 then false
    else if |auth.clientID.value| != Sha1Size || |auth.userName| > MaxNameLength then false
    else if Space in auth.userName then false
    else true
  }

  /** The username length limit is inclusive at 50 bytes, and a space
      anywhere is refused whatever the length. */
  lemma UserNameBoundary(id: Bytes, u: Bytes, i: nat)
    requires ValidClientID(Some(id))
    ensures |u| == 50 && Space !in u ==> ValidateAuthentication(Authentication(Some(id), u))
    ensures |u| == 51 ==> !ValidateAuthentication(Authentication(Some(id), u))
    ensures i < |u| && u[i] == Space ==> !ValidateAuthentication(Authentication(Some(id), u))
  {
  }

  /** The outcomes of the handshake's external calls: the first frame as
      decoded (`None` when receiving or decoding it failed), and whether the
      two store queries fail. */
  datatype AuthOracle = AuthOracle(frame: Option<Authentication>, checkIdFails: bool, lookupFails: bool)

  /** The verified username, or empty on rejection, and what was sent. */
  datatype AuthResult = AuthResult(userName: Bytes, trace: seq<Event>)

  /** Credentials that pass validation and match a stored identity. */
  predicate Authentic(db: Store, a: Authentication) {
    && ValidateAuthentication(a)
    && a.clientID.value in db.ids
    && db.ids[a.clientID.value] == a.userName
  }

  /** `checkAuthentication`: decode, validate, look the client id up, and
      compare the stored username with the supplied one. Decode and
      validation failures and store errors reject silently; an unknown id
      or a mismatched name is answered with one `IAT`. */
  function CheckAuthentication(db: Store, conn: Conn, o: AuthOracle): (r: AuthResult)
    ensures r.userName != [] <==>
      o.frame.Some? && Authentic(db, o.frame.value) && !o.checkIdFails && !o.lookupFails
    ensures r.userName != [] ==>
      && r.userName == o.frame.value.userName
      && r.userName == db.ids[o.frame.value.clientID.value]
      && r.trace == []
    ensures r.trace == [] || r.trace == [Reply(conn, InvalidAuth)]
    ensures r.trace == [Reply(conn, InvalidAuth)] <==>
      && o.frame.Some? && ValidateAuthentication(o.frame.value) && !o.checkIdFails
      && var id := o.frame.value.clientID.value;
         id !in db.ids || (!o.lookupFails && db.ids[id] != o.frame.value.userName)
  {
    match o.frame
    case None => AuthResult([], [])
    case Some(auth) =>
      if !ValidateAuthentication(auth) then AuthResult([], [])
      else if o.checkIdFails then AuthResult([], [])
      else if auth.clientID.value !in db.ids then AuthResult([], [Reply(conn, InvalidAuth)])
      else
        var stored := UserNameOf(db, auth.clientID.value).value;
        if o.lookupFails then AuthResult([], [])
        else if stored != auth.userName then AuthResult([], [Reply(conn, InvalidAuth)])
        else AuthResult(stored, [])
  }
}

=== FILE: deleter.dfy ===
/** The deletion session: authenticate, delete the user's row and mailbox
    table, answer `APV` on success, and drop the username from the
    registry on every path past authentication. */
module DeleterHandler {
  import opened Common
  import opened Wire
  import opened Store
  import opened Controller

  /** The outcomes of the session's external calls: the handshake, and the
      two statements of `DeleteUserAndTable`. Whether the `APV` send
      succeeds changes nothing: the removal follows either way. */
  datatype DeleterOracle = DeleterOracle(auth: AuthOracle, rowFails: bool, dropFails: bool)

  /** `Deleter`. The store reports success only when both statements went
      through; any error skips the `APV`. The registry entry is removed by
      name, whichever connection holds it. */
  function Deleter(st: State, conn: Conn, o: DeleterOracle): (r: Outcome)
    ensures var a := CheckAuthentication(st.db, conn, o.auth);
      a.userName == [] ==> r == Outcome(st, a.trace + [Close(conn)])
    ensures var a := CheckAuthentication(st.db, conn, o.auth);
      a.userName != [] ==>
        var d := DeleteUserAndTable(st.db, a.userName, o.rowFails, o.dropFails);
        && r.state.db == d.1
        && r.state.online == st.online - {a.userName}
        && (d.0 == Deleted ==> r.trace == [Reply(conn, Approve), Close(conn)])
        && (d.0 != Deleted ==> r.trace == [Close(conn)])
    ensures Consistent(st.db) ==> Consistent(r.state.db)
  {
    var a := CheckAuthentication(st.db, conn, o.auth);
    if a.userName == [] then Outcome(st, a.trace + [Close(conn)])
    else
      var d := DeleteUserAndTable(st.db, a.userName, o.rowFails, o.dropFails);
      if d.0 != Deleted then RemoveAndCloseOnlineClient(st.(db := d.1), conn, a.userName)
      else Then([Reply(conn, Approve)], RemoveAndCloseOnlineClient(st.(db := d.1), conn, a.userName))
  }

  /** Past authentication, the user is offline afterwards and every other
      entry of the registry is unchanged; `APV` is sent exactly when both
      the row and the table are gone. */
  lemma DeleterRemoves(st: State, conn: Conn, o: DeleterOracle)
    requires CheckAuthentication(st.db, conn, o.auth).userName != []
    ensures var name := CheckAuthentication(st.db, conn, o.auth).userName;
      var r := Deleter(st, conn, o);
      && !CheckIsClientOnline(r.state.online, name)
      && (forall u :: u != name ==> (u in r.state.online <==> u in st.online))
      && (forall u :: u != name && u in st.online ==> r.state.online[u] == st.online[u])
      && (r.trace[0] == Reply(conn, Approve) <==>
            !o.rowFails && !o.dropFails && name in st.db.mailboxes)
      && (r.trace[0] == Reply(conn, Approve) ==>
            name !in r.state.db.users && name !in r.state.db.mailboxes)
      && r.trace[|r.trace| - 1] == Close(conn)
  {
  }

  /** The two statements are not atomic: when the row delete succeeds but
      the `DROP TABLE` fails (or finds no table), no `APV` is sent, the row
      is gone, and every mailbox table, the user's included, is left as it
      was. */
  lemma DeleterPartial(st: State, conn: Conn, o: DeleterOracle)
    requires CheckAuthentication(st.db, conn, o.auth).userName != []
    requires !o.rowFails && (o.dropFails || CheckAuthentication(st.db, conn, o.auth).userName !in st.db.mailboxes)
    ensures var name := CheckAuthentication(st.db, conn, o.auth).userName;
      var r := Deleter(st, conn, o);
      && r.trace == [Close(conn)]
      && name !in r.state.db.users
      && r.state.db.mailboxes == st.db.mailboxes
  {
  }

  /** Removal is keyed by name: deleting an account evicts that user's live
      messaging session from the registry, and the session's connection is
      not closed; only the deleting connection is. */
  lemma DeleterEvictsLiveSession(st: State, conn: Conn, o: DeleterOracle)
    requires var name := CheckAuthentication(st.db, conn, o.auth).userName;
      name != [] && CheckIsClientOnline(st.online, name) && st.online[name] != conn
    ensures var name := CheckAuthentication(st.db, conn, o.auth).userName;
      var r := Deleter(st, conn, o);
      && !CheckIsClientOnline(r.state.online, name)
      && Close(st.online[name]) !in r.trace
  {
  }

  /** After a full deletion the credentials no longer authenticate: the
      handshake meets an unknown client id and answers `IAT`. */
  lemma DeletedCannotAuthenticate(st: State, conn: Conn, o: DeleterOracle, conn2: Conn)
    requires CheckAuthentication(st.db, conn, o.auth).userName != [] && !o.rowFails
    ensures var db := Deleter(st, conn, o).state.db;
      var auth := o.auth.frame.value;
      CheckAuthentication(db, conn2, AuthOracle(Some(auth), false, false)).trace == [Reply(conn2, InvalidAuth)]
  {
    var name := CheckAuthentication(st.db, conn, o.auth).userName;
    var auth := o.auth.frame.value;
    var db := Deleter(st, conn, o).state.db;
    assert st.db.ids[auth.clientID.value] == name;
    assert auth.clientID.value !in db.ids;
  }
}

=== FILE: messenger.dfy ===
/** The messaging session: authenticate, join the registry, flush the
    mailbox, then relay every received message to its recipients. The
    goroutines the source spawns for deliveries run, in this model, at the
    point where they are spawned. */
module MessengerHandler {
  import opened Common
  import opened Text
  import opened Wire
  import opened Store
  import opened Controller

  // ----- message validation ------------------------------------------------

  /** `messageValidator`: the sender is non-empty, the recipient list is
      present (possibly empty) and holds no empty name, and the text is not
      all whitespace. An accepted message continues with its text trimmed. */
  function MessageValidator(m: ClientSendMessage): (r: Option<ClientSendMessage>)
    ensures r.Some? <==> m.sender != [] && m.to.Some? && [] !in m.to.value && !AllSpace(m.text)
    ensures r.Some? ==> r.value == m.(text := TrimSpace(m.text))
  {
    if m.sender == [] || m.to.None? then None
    else if [] in m.to.value then None
    else
      var text := TrimSpace(m.text);
      TrimSpaceEmptyIffAllSpace(m.text);
      if text == [] then None else Some(m.(text := text))
  }

  /** A validated message passes validation again, unchanged. */
  lemma {:induction false} MessageValidatorIdempotent(m: ClientSendMessage)
    requires MessageValidator(m).Some?
    ensures MessageValidator(MessageValidator(m).value) == MessageValidator(m)
  {
    var v := MessageValidator(m).value;
    TrimSpaceIdempotent(m.text);
    TrimSpaceEmptyIffAllSpace(m.text);
    TrimSpaceEmptyIffAllSpace(v.text);
  }

  // ----- delivery ----------------------------------------------------------

  /** The transport and store outcomes of one `deliverMessage`. */
  datatype PushFaults = PushFaults(pushOk: bool, insertFails: bool)

  /** `deliverMessage`: push the message on `conn`. If the push fails, put
      it back into the user's mailbox and drop the user from the registry,
      closing `conn`. A successful push changes nothing. */
  function DeliverMessage(st: State, conn: Conn, userName: Bytes, m: MessageData, f: PushFaults): (r: Outcome)
    ensures r.trace != [] && r.trace[0] == Push(conn, m)
  {
    if f.pushOk then Outcome(st, [Push(conn, m)])
    else
      match InsertMessage(st.db, userName, m)
      case Some(db) =>
        if f.insertFails then Then([Push(conn, m)], RemoveAndCloseOnlineClient(st, conn, userName))
        else Then([Push(conn, m), Enqueue(userName, m)], RemoveAndCloseOnlineClient(st.(db := db), conn, userName))
      case None => Then([Push(conn, m)], RemoveAndCloseOnlineClient(st, conn, userName))
  }

  /** A successful push changes nothing; a failed one drops the user and
      closes `conn` last, after putting the message back when its mailbox
      exists and the insert succeeds. */
  lemma DeliverMessageEvents(st: State, conn: Conn, userName: Bytes, m: MessageData, f: PushFaults)
    ensures var r := DeliverMessage(st, conn, userName, m, f);
      && (f.pushOk ==> r.state == st && r.trace == [Push(conn, m)])
      && (!f.pushOk ==> userName !in r.state.online && r.trace[|r.trace| - 1] == Close(conn))
      && (!f.pushOk && !f.insertFails && userName in st.db.mailboxes ==>
            && r.state.db.mailboxes == st.db.mailboxes[userName := st.db.mailboxes[userName] + [m]]
            && r.trace == [Push(conn, m), Enqueue(userName, m), Close(conn)])
      && (!f.pushOk && (f.insertFails || userName !in st.db.mailboxes) ==>
            r.state.db == st.db && r.trace == [Push(conn, m), Close(conn)])
  {
  }

  /** A delivery removes at most the user from the registry, and leaves the
      user rows and the set of mailbox tables alone. */
  lemma DeliverMessageFrame(st: State, conn: Conn, userName: Bytes, m: MessageData, f: PushFaults)
    ensures var r := DeliverMessage(st, conn, userName, m, f);
      && SubRegistry(r.state.online, st.online)
      && (forall u :: u != userName && u in st.online ==> u in r.state.online)
      && r.state.db.users == st.db.users && r.state.db.ids == st.db.ids
      && r.state.db.mailboxes.Keys == st.db.mailboxes.Keys
  {
  }

  // ----- mailbox flush -----------------------------------------------------

  /** The outcomes of flushing one mailbox message: its delete, then its
      delivery. */
  datatype FlushFaults = FlushFaults(deleteFails: bool, push: PushFaults)

  /** The index of the first message from `i` on whose delete fails, or `n`
      when none does. */
  function FirstDeleteFailure(n: nat, faults: nat -> FlushFaults, i: nat): (k: nat)
    requires i <= n
    ensures i <= k <= n
    ensures forall j :: i <= j < k ==> !faults(j).deleteFails
    ensures k < n ==> faults(k).deleteFails
    decreases n - i
  {
    if i == n then n
    else if faults(i).deleteFails then i
    else FirstDeleteFailure(n, faults, i + 1)
  }

  /** Every `Push` in `t` goes out on `conn` right after the mailbox delete
      of the same message: `t` does not start with a push, and each later
      event is paired with the one before it. */
  predicate DequeuedBeforePushed(t: seq<Event>, conn: Conn, userName: Bytes) {
    (t != [] ==> !t[0].Push?) && PushesPaired(t, conn, userName)
  }

  /** Each `Push` in `t` after the first event is on `conn` and comes
      right after the delete of its message. */
  predicate PushesPaired(t: seq<Event>, conn: Conn, userName: Bytes)
    decreases |t|
  {
    |t| < 2
    || (&& (t[1].Push? ==> t[1].conn == conn && t[0] == Dequeue(userName, t[1].message))
        && PushesPaired(t[1..], conn, userName))
  }

  /** The index reading of `DequeuedBeforePushed`: every push is on `conn`,
      is not the first event, and the event before it is the delete of the
      pushed message. */
  lemma {:induction false} DequeuedBeforePushedIndex(t: seq<Event>, conn: Conn, userName: Bytes)
    requires DequeuedBeforePushed(t, conn, userName)
    ensures forall j :: 0 <= j < |t| && t[j].Push? ==> 0 < j && t[j].conn == conn
    ensures forall i, j :: 0 <= i < |t| && 0 <= j < |t| && j == i + 1 && t[j].Push? ==> t[i] == Dequeue(userName, t[j].message)
  {
    PushesPairedIndex(t, conn, userName);
  }

  /** `PushesPaired` by index: every push after the first event goes to
      `conn` and directly follows the dequeue of the same message. */
  lemma {:induction false} PushesPairedIndex(t: seq<Event>, conn: Conn, userName: Bytes)
    requires PushesPaired(t, conn, userName)
    decreases |t|
    ensures forall j :: 1 <= j < |t| && t[j].Push? ==> t[j].conn == conn
    ensures forall i, j :: 0 <= i < |t| && 0 <= j < |t| && j == i + 1 && t[j].Push? ==> t[i] == Dequeue(userName, t[j].message)
  {
    if |t| >= 2 {
      PushesPairedIndex(t[1..], conn, userName);
      forall j | 1 <= j < |t| && t[j].Push?
        ensures t[j].conn == conn
      {
        if j > 1 {
          assert t[j] == t[1..][j - 1];
        }
      }
      forall i, j | 0 <= i < |t| && 0 <= j < |t| && j == i + 1 && t[j].Push?
        ensures t[i] == Dequeue(userName, t[j].message)
      {
        if i > 0 {
          assert t[i] == t[1..][i - 1] && t[j] == t[1..][j - 1];
        }
      }
    }
  }

  /** Two paired traces stay paired when joined, provided the second does
      not start with a push (which would lack its dequeue). */
  lemma {:induction false} PushesPairedAppend(a: seq<Event>, b: seq<Event>, conn: Conn, userName: Bytes)
    requires PushesPaired(a, conn, userName) && PushesPaired(b, conn, userName)
    requires b != [] ==> !b[0].Push?
    decreases |a|
    ensures PushesPaired(a + b, conn, userName)
  {
    if a == [] {
      assert a + b == b;
    } else if |a| == 1 {
      if b != [] {
        assert (a + b)[1] == b[0];
        assert (a + b)[1..] == b;
      }
    } else {
      PushesPairedAppend(a[1..], b, conn, userName);
      assert (a + b)[0] == a[0] && (a + b)[1] == a[1];
      assert (a + b)[1..] == a[1..] + b;
    }
  }

  /** Joining two traces that dequeue before pushing keeps that order. */
  lemma DequeuedBeforePushedAppend(a: seq<Event>, b: seq<Event>, conn: Conn, userName: Bytes)
    requires DequeuedBeforePushed(a, conn, userName) && DequeuedBeforePushed(b, conn, userName)
    ensures DequeuedBeforePushed(a + b, conn, userName)
  {
    PushesPairedAppend(a, b, conn, userName);
    if a == [] {
      assert a + b == b;
    } else {
      assert (a + b)[0] == a[0];
    }
  }

  /** Congruence helper: `DequeuedBeforePushedAppend` for a run written as
      `Then(t, rest)`, so that callers need not unfold `Then`. */
  lemma DequeuedBeforePushedThen(whole: Outcome, t: seq<Event>, rest: Outcome, conn: Conn, userName: Bytes)
    requires whole == Then(t, rest)
    requires DequeuedBeforePushed(t, conn, userName) && DequeuedBeforePushed(rest.trace, conn, userName)
    ensures DequeuedBeforePushed(whole.trace, conn, userName)
  {
    DequeuedBeforePushedAppend(t, rest.trace, conn, userName);
  }

  /** The flush loop of `Messenger`, from message `i` on: delete each
      listed message from the mailbox, then deliver it. A failed delete
      drops the user, closes the connection and ends the loop. Flushing
      leaves the registry as it was or without the session's own user, and
      leaves the user rows and the set of mailbox tables alone. */
  function Flush(st: State, conn: Conn, userName: Bytes, msgs: seq<MessageData>, faults: nat -> FlushFaults, i: nat): (r: Outcome)
    requires i <= |msgs|
    decreases |msgs| - i
    ensures r.state.online == st.online || r.state.online == st.online - {userName}
    ensures r.state.db.users == st.db.users && r.state.db.ids == st.db.ids
    ensures r.state.db.mailboxes.Keys == st.db.mailboxes.Keys
  {
    if i == |msgs| then Outcome(st, [])
    else
      var m := msgs[i];
      match DeleteMessage(st.db, userName, m)
      case None => RemoveAndCloseOnlineClient(st, conn, userName)
      case Some(db) =>
        if faults(i).deleteFails then RemoveAndCloseOnlineClient(st, conn, userName)
        else
          var d := DeliverMessage(st.(db := db), conn, userName, m, faults(i).push);
          DeliverMessageFrame(st.(db := db), conn, userName, m, faults(i).push);
          Then([Dequeue(userName, m)] + d.trace, Flush(d.state, conn, userName, msgs, faults, i + 1))
  }

  /** Delete before deliver: every push of the flush goes out on the
      session's connection right after the mailbox delete of the same
      message. */
  lemma {:induction false} FlushDequeuesFirst(st: State, conn: Conn, userName: Bytes, msgs: seq<MessageData>, faults: nat -> FlushFaults, i: nat)
    requires i <= |msgs|
    decreases |msgs| - i, 1
    ensures DequeuedBeforePushed(Flush(st, conn, userName, msgs, faults, i).trace, conn, userName)
  {
    if i < |msgs| && userName in st.db.mailboxes && !faults(i).deleteFails {
      FlushDequeuesFirstStep(st, conn, userName, msgs, faults, i);
    } else {
      FlushQuiet(st, conn, userName, msgs, faults, i);
    }
  }

  /** The inductive step of `FlushDequeuesFirst`, when the delete of
      message `i` succeeds. */
  lemma {:induction false} FlushDequeuesFirstStep(st: State, conn: Conn, userName: Bytes, msgs: seq<MessageData>, faults: nat -> FlushFaults, i: nat)
    requires i < |msgs| && userName in st.db.mailboxes && !faults(i).deleteFails
    decreases |msgs| - i, 0
    ensures DequeuedBeforePushed(Flush(st, conn, userName, msgs, faults, i).trace, conn, userName)
  {
    var next := FlushStepDequeues(st, conn, userName, msgs, faults, i);
    FlushDequeuesFirst(next, conn, userName, msgs, faults, i + 1);
  }


  /** A flush that has nothing left to flush, or whose next delete fails,
      pushes nothing. */
  lemma FlushQuiet(st: State, conn: Conn, userName: Bytes, msgs: seq<MessageData>, faults: nat -> FlushFaults, i: nat)
    requires i <= |msgs|
    requires i == |msgs| || userName !in st.db.mailboxes || faults(i).deleteFails
    ensures DequeuedBeforePushed(Flush(st, conn, userName, msgs, faults, i).trace, conn, userName)
  {
    if i < |msgs| {
      assert Flush(st, conn, userName, msgs, faults, i).trace == [Close(conn)];
    }
  }

  /** One delivery pushes exactly the one message. */
  lemma DeliverMessagePushes(st: State, conn: Conn, userName: Bytes, m: MessageData, f: PushFaults)
    ensures Pushes(DeliverMessage(st, conn, userName, m, f).trace) == [m]
  {
    var t := DeliverMessage(st, conn, userName, m, f).trace;
    assert t[1..] == [] || t[1..] == [Close(conn)] || t[1..] == [Enqueue(userName, m), Close(conn)];
    assert Pushes(t[1..]) == [] by {
      if t[1..] == [Enqueue(userName, m), Close(conn)] {
        assert t[1..][1..] == [Close(conn)];
      }
    }
  }

  /** The delete, the delivery and the rest of the loop, when the delete
      of message `i` succeeds. */
  lemma FlushUnfold(st: State, conn: Conn, userName: Bytes, msgs: seq<MessageData>, faults: nat -> FlushFaults, i: nat)
    requires i < |msgs| && userName in st.db.mailboxes && !faults(i).deleteFails
    ensures var d := DeliverMessage(st.(db := DeleteMessage(st.db, userName, msgs[i]).value), conn, userName, msgs[i], faults(i).push);
      && userName in d.state.db.mailboxes
      && Flush(st, conn, userName, msgs, faults, i)
         == Then([Dequeue(userName, msgs[i])] + d.trace, Flush(d.state, conn, userName, msgs, faults, i + 1))
  {
  }

  /** Proof helper: `FlushUnfold` with the delivery's events and the state
      the rest of the loop starts from named, so that the inductive lemmas
      about `Flush` step without unfolding it. */
  lemma FlushNext(st: State, conn: Conn, userName: Bytes, msgs: seq<MessageData>, faults: nat -> FlushFaults, i: nat)
      returns (next: State, t: seq<Event>)
    requires i < |msgs| && userName in st.db.mailboxes && !faults(i).deleteFails
    ensures userName in next.db.mailboxes
    ensures Flush(st, conn, userName, msgs, faults, i) == Then(t, Flush(next, conn, userName, msgs, faults, i + 1))
    ensures DequeuedBeforePushed(t, conn, userName)
    ensures Pushes(t) == [msgs[i]]
  {
    var pre := st.(db := DeleteMessage(st.db, userName, msgs[i]).value);
    var d := DeliverMessage(pre, conn, userName, msgs[i], faults(i).push);
    FlushUnfold(st, conn, userName, msgs, faults, i);
    DeliveryDequeued(pre, conn, userName, msgs[i], faults(i).push);
    DeliveryPushes(pre, conn, userName, msgs[i], faults(i).push);
    next, t := d.state, [Dequeue(userName, msgs[i])] + d.trace;
  }

  /** Proof helper for `FlushDequeuesFirstStep`: the property carries from
      the rest of the flush to the whole. */
  lemma FlushStepDequeues(st: State, conn: Conn, userName: Bytes, msgs: seq<MessageData>, faults: nat -> FlushFaults, i: nat)
      returns (next: State)
    requires i < |msgs| && userName in st.db.mailboxes && !faults(i).deleteFails
    ensures DequeuedBeforePushed(Flush(next, conn, userName, msgs, faults, i + 1).trace, conn, userName) ==>
      DequeuedBeforePushed(Flush(st, conn, userName, msgs, faults, i).trace, conn, userName)
  {
    var t;
    next, t := FlushNext(st, conn, userName, msgs, faults, i);
    var rest := Flush(next, conn, userName, msgs, faults, i + 1);
    if DequeuedBeforePushed(rest.trace, conn, userName) {
      DequeuedBeforePushedThen(Flush(st, conn, userName, msgs, faults, i), t, rest, conn, userName);
    }
  }

  /** A delivery preceded by its delete has its one push right after it. */
  lemma DeliveryDequeued(st: State, conn: Conn, userName: Bytes, m: MessageData, f: PushFaults)
    ensures DequeuedBeforePushed([Dequeue(userName, m)] + DeliverMessage(st, conn, userName, m, f).trace, conn, userName)
  {
    var d := DeliverMessage(st, conn, userName, m, f).trace;
    var t := [Dequeue(userName, m)] + d;
    DeliverMessageEvents(st, conn, userName, m, f);
    assert t[1..] == d;
    assert PushesPaired(d[1..], conn, userName) by {
      if |d| == 3 {
        assert d[1..][1..] == [Close(conn)];
      }
    }
  }

  /** A failed delete of message `i` ends the loop at once. */
  lemma FlushStops(st: State, conn: Conn, userName: Bytes, msgs: seq<MessageData>, faults: nat -> FlushFaults, i: nat)
    requires i < |msgs| && faults(i).deleteFails
    ensures Flush(st, conn, userName, msgs, faults, i) == RemoveAndCloseOnlineClient(st, conn, userName)
  {
  }

  /** A delete followed by its delivery pushes exactly the message. */
  lemma DeliveryPushes(st: State, conn: Conn, userName: Bytes, m: MessageData, f: PushFaults)
    ensures Pushes([Dequeue(userName, m)] + DeliverMessage(st, conn, userName, m, f).trace) == [m]
  {
    var head := [Dequeue(userName, m)];
    var t := DeliverMessage(st, conn, userName, m, f).trace;
    assert head[1..] == [];
    assert Pushes(head) == [];
    PushesAppend(head, t);
    DeliverMessagePushes(st, conn, userName, m, f);
  }

  /** Exactly the messages before the first failed delete are pushed, each
      once and in the listed order. */
  lemma {:induction false} FlushPushesPrefix(st: State, conn: Conn, userName: Bytes, msgs: seq<MessageData>, faults: nat -> FlushFaults, i: nat)
    requires i <= |msgs|
    requires userName in st.db.mailboxes
    decreases |msgs| - i, 1
    ensures Pushes(Flush(st, conn, userName, msgs, faults, i).trace) == msgs[i..FirstDeleteFailure(|msgs|, faults, i)]
  {
    if i < |msgs| && !faults(i).deleteFails {
      FlushPushesPrefixStep(st, conn, userName, msgs, faults, i);
    } else if i < |msgs| {
      FlushStops(st, conn, userName, msgs, faults, i);
      assert Pushes([Close(conn)]) == [];
    }
  }

  /** The inductive step of `FlushPushesPrefix`, when the delete of
      message `i` succeeds; kept apart so each proof stays small. */
  lemma {:induction false} FlushPushesPrefixStep(st: State, conn: Conn, userName: Bytes, msgs: seq<MessageData>, faults: nat -> FlushFaults, i: nat)
    requires i < |msgs| && !faults(i).deleteFails
    requires userName in st.db.mailboxes
    decreases |msgs| - i, 0
    ensures Pushes(Flush(st, conn, userName, msgs, faults, i).trace) == msgs[i..FirstDeleteFailure(|msgs|, faults, i)]
  {
    var next, t := FlushNext(st, conn, userName, msgs, faults, i);
    FlushPushesPrefix(next, conn, userName, msgs, faults, i + 1);
    var k := FirstDeleteFailure(|msgs|, faults, i);
    assert k == FirstDeleteFailure(|msgs|, faults, i + 1);
    SliceCons(msgs, i, k);
    PushesThen(Flush(st, conn, userName, msgs, faults, i), t, Flush(next, conn, userName, msgs, faults, i + 1));
  }

  /** Congruence helper: `PushesAppend` for a run written as `Then(t, rest)`. */
  lemma PushesThen(whole: Outcome, t: seq<Event>, rest: Outcome)
    requires whole == Then(t, rest)
    ensures Pushes(whole.trace) == Pushes(t) + Pushes(rest.trace)
  {
    PushesAppend(t, rest.trace);
  }

  /** A slice that is not empty is its first element followed by the rest. */
  lemma SliceCons<T>(s: seq<T>, i: nat, k: nat)
    requires i < k <= |s|
    ensures s[i..k] == [s[i]] + s[i + 1..k]
  {
  }

  /** `r` ends with `userName` offline and `conn` closed as its last event. */
  predicate EndsClosed(r: Outcome, conn: Conn, userName: Bytes) {
    userName !in r.state.online && r.trace != [] && r.trace[|r.trace| - 1] == Close(conn)
  }

  lemma ThenEndsClosed(t: seq<Event>, rest: Outcome, conn: Conn, userName: Bytes)
    requires EndsClosed(rest, conn, userName)
    ensures EndsClosed(Then(t, rest), conn, userName)
  {
    ThenLast(t, rest);
  }

  /** A failed delete of any message `k` from `i` on (the first failure is
      at `k` or before it) leaves the user offline, with the session's
      connection closed as the last event. */
  lemma {:induction false} FlushDeleteFailure(st: State, conn: Conn, userName: Bytes, msgs: seq<MessageData>, faults: nat -> FlushFaults, i: nat, k: nat)
    requires i <= k < |msgs|
    requires userName in st.db.mailboxes
    requires faults(k).deleteFails
    decreases k - i, 1
    ensures EndsClosed(Flush(st, conn, userName, msgs, faults, i), conn, userName)
  {
    if faults(i).deleteFails {
      FlushStops(st, conn, userName, msgs, faults, i);
    } else {
      FlushDeleteFailureStep(st, conn, userName, msgs, faults, i, k);
    }
  }

  /** The inductive step of `FlushDeleteFailure`, when the delete of
      message `i` succeeds; kept apart so each proof stays small. */
  lemma {:induction false} FlushDeleteFailureStep(st: State, conn: Conn, userName: Bytes, msgs: seq<MessageData>, faults: nat -> FlushFaults, i: nat, k: nat)
    requires i <= k < |msgs|
    requires userName in st.db.mailboxes
    requires faults(k).deleteFails && !faults(i).deleteFails
    decreases k - i, 0
    ensures EndsClosed(Flush(st, conn, userName, msgs, faults, i), conn, userName)
  {
    var next, t := FlushNext(st, conn, userName, msgs, faults, i);
    FlushDeleteFailure(next, conn, userName, msgs, faults, i + 1, k);
    ThenEndsClosed(t, Flush(next, conn, userName, msgs, faults, i + 1), conn, userName);
  }

  /** A mailbox message the loop never reached stays in the mailbox: only
      the messages before the first failed delete are removed. */
  lemma {:induction false} FlushKeepsUnprocessed(st: State, conn: Conn, userName: Bytes, msgs: seq<MessageData>, faults: nat -> FlushFaults, i: nat)
    requires i <= |msgs|
    requires userName in st.db.mailboxes
    decreases |msgs| - i, 1
    ensures var r := Flush(st, conn, userName, msgs, faults, i);
      var k := FirstDeleteFailure(|msgs|, faults, i);
      && userName in r.state.db.mailboxes
      && forall x :: x in st.db.mailboxes[userName] && x !in msgs[i..k] ==> x in r.state.db.mailboxes[userName]
  {
    if i < |msgs| && !faults(i).deleteFails {
      FlushKeepsUnprocessedStep(st, conn, userName, msgs, faults, i);
    } else if i < |msgs| {
      FlushStops(st, conn, userName, msgs, faults, i);
    }
  }

  /** The inductive step of `FlushKeepsUnprocessed`, when the delete of
      message `i` succeeds; kept apart so each proof stays small. */
  lemma {:induction false} FlushKeepsUnprocessedStep(st: State, conn: Conn, userName: Bytes, msgs: seq<MessageData>, faults: nat -> FlushFaults, i: nat)
    requires i < |msgs| && !faults(i).deleteFails
    requires userName in st.db.mailboxes
    decreases |msgs| - i, 0
    ensures var r := Flush(st, conn, userName, msgs, faults, i);
      var k := FirstDeleteFailure(|msgs|, faults, i);
      && userName in r.state.db.mailboxes
      && forall x :: x in st.db.mailboxes[userName] && x !in msgs[i..k] ==> x in r.state.db.mailboxes[userName]
  {
    var m := msgs[i];
    var st1 := st.(db := DeleteMessage(st.db, userName, m).value);
    var d := DeliverMessage(st1, conn, userName, m, faults(i).push);
    FlushUnfold(st, conn, userName, msgs, faults, i);
    FlushKeepsUnprocessed(d.state, conn, userName, msgs, faults, i + 1);
    var k := FirstDeleteFailure(|msgs|, faults, i);
    assert msgs[i..k] == [m] + msgs[i + 1..k];
    WithoutMembers(st.db.mailboxes[userName], m);
    forall x | x in st.db.mailboxes[userName] && x !in msgs[i..k]
      ensures x in d.state.db.mailboxes[userName] && x !in msgs[i + 1..k]
    {
      assert x in st1.db.mailboxes[userName];
    }
  }

  /** Every delete and every push of a flush from `i` on succeeds. */
  predicate CleanFlush(faults: nat -> FlushFaults, i: nat, n: nat) {
    forall j :: i <= j < n ==> !faults(j).deleteFails && faults(j).push.pushOk
  }

  /** When every delete and push succeeds, the mailbox afterwards holds
      exactly the rows that equal none of the flushed messages. */
  lemma {:induction false} FlushPurges(st: State, conn: Conn, userName: Bytes, msgs: seq<MessageData>, faults: nat -> FlushFaults, i: nat)
    requires i <= |msgs|
    requires userName in st.db.mailboxes
    requires CleanFlush(faults, i, |msgs|)
    decreases |msgs| - i
    ensures var r := Flush(st, conn, userName, msgs, faults, i);
      && userName in r.state.db.mailboxes
      && forall x :: x in r.state.db.mailboxes[userName] <==> x in st.db.mailboxes[userName] && x !in msgs[i..]
    ensures var r := Flush(st, conn, userName, msgs, faults, i);
      forall x :: multiset(r.state.db.mailboxes[userName])[x] ==
        if x in msgs[i..] then 0 else multiset(st.db.mailboxes[userName])[x]
  {
    if i < |msgs| {
      var m := msgs[i];
      var st1 := st.(db := DeleteMessage(st.db, userName, m).value);
      var d := DeliverMessage(st1, conn, userName, m, faults(i).push);
      assert d.state == st1;
      WithoutMembers(st.db.mailboxes[userName], m);
      FlushUnfold(st, conn, userName, msgs, faults, i);
      FlushPurges(d.state, conn, userName, msgs, faults, i + 1);
      assert msgs[i..] == [m] + msgs[i + 1..];
    }
  }

  // ----- fan-out ------------------------------------------------------------

  /** No event of `t` is a response flag. */
  predicate NoReplies(t: seq<Event>) {
    forall j :: 0 <= j < |t| ==> !t[j].Reply?
  }

  /** Every message `t` pushes or enqueues is `rm`. */
  predicate Carries(t: seq<Event>, rm: MessageData) {
    forall j :: 0 <= j < |t| && (t[j].Push? || t[j].Enqueue?) ==> t[j].message == rm
  }

  /** Two traces that carry only `rm` still do so when joined. */
  lemma CarriesAppend(a: seq<Event>, b: seq<Event>, rm: MessageData)
    requires Carries(a, rm) && Carries(b, rm)
    ensures Carries(a + b, rm)
  {
    forall j | 0 <= j < |a + b| && ((a + b)[j].Push? || (a + b)[j].Enqueue?)
      ensures (a + b)[j].message == rm
    {
      if j < |a| {
        assert (a + b)[j] == a[j];
      } else {
        assert (a + b)[j] == b[j - |a|];
      }
    }
  }

  /** Two traces without replies still have none when joined. */
  lemma NoRepliesAppend(a: seq<Event>, b: seq<Event>)
    requires NoReplies(a) && NoReplies(b)
    ensures NoReplies(a + b)
  {
    forall j | 0 <= j < |a + b|
      ensures !(a + b)[j].Reply?
    {
      if j < |a| {
        assert (a + b)[j] == a[j];
      } else {
        assert (a + b)[j] == b[j - |a|];
      }
    }
  }

  /** Congruence helper: `CarriesAppend` for a run written as `Then(t, rest)`. */
  lemma CarriesThen(whole: Outcome, t: seq<Event>, rest: Outcome, rm: MessageData)
    requires whole == Then(t, rest)
    requires Carries(t, rm) && Carries(rest.trace, rm)
    ensures Carries(whole.trace, rm)
  {
    CarriesAppend(t, rest.trace, rm);
  }

  /** Congruence helper: `NoRepliesAppend` for a run written as `Then(t, rest)`. */
  lemma NoRepliesThen(whole: Outcome, t: seq<Event>, rest: Outcome)
    requires whole == Then(t, rest)
    requires NoReplies(t) && NoReplies(rest.trace)
    ensures NoReplies(whole.trace)
  {
    NoRepliesAppend(t, rest.trace);
  }

  /** A trace without replies acknowledges nothing on any connection. */
  lemma {:induction false} NoRepliesAcks(t: seq<Event>, conn: Conn)
    requires NoReplies(t)
    ensures Acks(t, conn) == []
  {
    if t != [] {
      assert !t[0].Reply?;
      NoRepliesAcks(t[1..], conn);
    }
  }

  /** The outcomes of the external calls made for one recipient: the
      existence check, the acknowledgement send, the push to an online
      recipient, and the mailbox insert for an offline one. */
  datatype RecipientFaults = RecipientFaults(checkFails: bool, ackOk: bool, push: PushFaults, insertFails: bool)

  /** The delivery goroutine of `messageHandler` for a known recipient:
      push to the recipient's registered connection when online, otherwise
      append to the recipient's mailbox. A failed insert drops the SENDER
      (the name the message claims) and closes the sending connection. */
  function Dispatch(st: State, conn: Conn, msg: ClientSendMessage, user: Bytes, f: RecipientFaults): (r: Outcome)
    ensures user in st.online ==> r.trace != [] && r.trace[0] == Push(st.online[user], Forwarded(msg))
    ensures user !in st.online && !f.insertFails && user in st.db.mailboxes ==>
      && r.trace == [Enqueue(user, Forwarded(msg))]
      && r.state.online == st.online
      && r.state.db.mailboxes == st.db.mailboxes[user := st.db.mailboxes[user] + [Forwarded(msg)]]
    ensures user !in st.online && (f.insertFails || user !in st.db.mailboxes) ==>
      r == RemoveAndCloseOnlineClient(st, conn, msg.sender)
    ensures Pushes(r.trace) == (if user in st.online then [Forwarded(msg)] else [])
    ensures NoReplies(r.trace) && Carries(r.trace, Forwarded(msg))
    ensures msg.sender in st.online && msg.sender != user && (user !in st.online ==> !f.insertFails && user in st.db.mailboxes) ==>
      msg.sender in r.state.online
    ensures SubRegistry(r.state.online, st.online)
    ensures r.state.db.users == st.db.users && r.state.db.ids == st.db.ids
    ensures r.state.db.mailboxes.Keys == st.db.mailboxes.Keys
  {
    var rm := Forwarded(msg);
    if CheckIsClientOnline(st.online, user) then
      DeliverMessagePushes(st, st.online[user], user, rm, f.push);
      DeliverMessage(st, st.online[user], user, rm, f.push)
    else
      match InsertMessage(st.db, user, rm)
      case Some(db) =>
        if f.insertFails then RemoveAndCloseOnlineClient(st, conn, msg.sender)
        else Outcome(st.(db := db), [Enqueue(user, rm)])
      case None => RemoveAndCloseOnlineClient(st, conn, msg.sender)
  }

  /** Sends `flag` on the sending connection; a failed send drops the
      sender and closes the connection. */
  function Acknowledge(st: State, conn: Conn, sender: Bytes, flag: Flag, ok: bool): (r: Outcome)
    ensures r.trace != [] && r.trace[0] == Reply(conn, flag)
    ensures ok ==> r == Outcome(st, [Reply(conn, flag)])
    ensures !ok ==> sender !in r.state.online && r.trace == [Reply(conn, flag), Close(conn)]
    ensures SubRegistry(r.state.online, st.online) && r.state.db == st.db
    ensures Pushes(r.trace) == []
  {
    if ok then Outcome(st, [Reply(conn, flag)])
    else Then([Reply(conn, flag)], RemoveAndCloseOnlineClient(st, conn, sender))
  }

  /** What handling one recipient did, and whether the loop stops. */
  datatype Visited = Visited(out: Outcome, abort: bool)

  /** One iteration of `messageHandler`'s recipient loop. A failed existence
      check drops the sender and stops the loop. An unknown recipient is
      answered `NSU` if the sender is online. A known one gets exactly one
      delivery, after which `RCV` is sent if the sender is still online. */
  function Visit(st: State, conn: Conn, msg: ClientSendMessage, user: Bytes, f: RecipientFaults): (r: Visited)
    ensures r.abort <==> f.checkFails
    ensures f.checkFails ==> r.out == RemoveAndCloseOnlineClient(st, conn, msg.sender)
    ensures !f.checkFails && user !in st.db.users ==>
      && r.out.state.db == st.db
      && (r.out.trace != [] <==> msg.sender in st.online)
      && (msg.sender in st.online ==> r.out.trace[0] == Reply(conn, NoSuchUser))
    ensures !f.checkFails && user in st.db.users ==>
      var d := Dispatch(st, conn, msg, user, f);
      && (msg.sender in d.state.online ==>
            r.out.trace == d.trace + Acknowledge(d.state, conn, msg.sender, Received, f.ackOk).trace)
      && (msg.sender !in d.state.online ==> r.out == d)
    ensures Carries(r.out.trace, Forwarded(msg))
    ensures msg.sender !in st.online ==> NoReplies(r.out.trace)
    ensures SubRegistry(r.out.state.online, st.online)
    ensures r.out.state.db.users == st.db.users && r.out.state.db.ids == st.db.ids
    ensures r.out.state.db.mailboxes.Keys == st.db.mailboxes.Keys
  {
    if f.checkFails then Visited(RemoveAndCloseOnlineClient(st, conn, msg.sender), true)
    else if user !in st.db.users then
      if CheckIsClientOnline(st.online, msg.sender)
      then Visited(Acknowledge(st, conn, msg.sender, NoSuchUser, f.ackOk), false)
      else Visited(Outcome(st, []), false)
    else
      var d := Dispatch(st, conn, msg, user, f);
      if CheckIsClientOnline(d.state.online, msg.sender)
      then Visited(Then(d.trace, Acknowledge(d.state, conn, msg.sender, Received, f.ackOk)), false)
      else Visited(d, false)
  }

  /** Exactly one delivery per known recipient: a visit pushes the
      forwarded message once when the recipient is registered and online,
      and pushes nothing otherwise (an offline recipient's copy goes to the
      mailbox instead). */
  lemma VisitDeliversOnce(st: State, conn: Conn, msg: ClientSendMessage, user: Bytes, f: RecipientFaults)
    ensures Pushes(Visit(st, conn, msg, user, f).out.trace) ==
      (if !f.checkFails && user in st.db.users && user in st.online then [Forwarded(msg)] else [])
  {
    if !f.checkFails && user in st.db.users {
      var d := Dispatch(st, conn, msg, user, f);
      if msg.sender in d.state.online {
        PushesAppend(d.trace, Acknowledge(d.state, conn, msg.sender, Received, f.ackOk).trace);
      }
    }
  }

  /** `messageHandler`'s recipient loop from recipient `i` on; it stops at
      the first failed existence check. */
  function FanOut(st: State, conn: Conn, msg: ClientSendMessage, to: seq<Bytes>, faults: nat -> RecipientFaults, i: nat): (r: Outcome)
    requires i <= |to|
    decreases |to| - i
    ensures SubRegistry(r.state.online, st.online)
    ensures r.state.db.users == st.db.users && r.state.db.ids == st.db.ids
    ensures r.state.db.mailboxes.Keys == st.db.mailboxes.Keys
  {
    if i == |to| then Outcome(st, [])
    else
      var v := Visit(st, conn, msg, to[i], faults(i));
      if v.abort then v.out
      else Then(v.out.trace, FanOut(v.out.state, conn, msg, to, faults, i + 1))
  }

  /** `messageHandler`: validate, refuse a message addressed to its own
      sender by dropping that sender, then visit every recipient. The sender
      is the name the message carries; nothing compares it with the user
      the session authenticated. */
  function MessageHandler(st: State, conn: Conn, m: ClientSendMessage, faults: nat -> RecipientFaults): (r: Outcome)
    ensures MessageValidator(m).None? ==> r == Outcome(st, [])
    ensures MessageValidator(m).Some? && m.sender in m.to.value ==>
      && r.trace == [Close(conn)]
      && r.state.db == st.db
      && m.sender !in r.state.online
      && (forall u :: u != m.sender && u in st.online ==> u in r.state.online)
    ensures SubRegistry(r.state.online, st.online)
    ensures r.state.db.users == st.db.users && r.state.db.ids == st.db.ids
    ensures r.state.db.mailboxes.Keys == st.db.mailboxes.Keys
  {
    match MessageValidator(m)
    case None => Outcome(st, [])
    case Some(v) =>
      if v.sender in v.to.value then RemoveAndCloseOnlineClient(st, conn, v.sender)
      else FanOut(st, conn, v, v.to.value, faults, 0)
  }

  /** One step of the recipient loop past a successful existence check. */
  lemma FanOutUnfold(st: State, conn: Conn, msg: ClientSendMessage, to: seq<Bytes>, faults: nat -> RecipientFaults, i: nat)
    requires i < |to| && !faults(i).checkFails
    ensures var v := Visit(st, conn, msg, to[i], faults(i));
      FanOut(st, conn, msg, to, faults, i) == Then(v.out.trace, FanOut(v.out.state, conn, msg, to, faults, i + 1))
  {
  }

  /** Proof helper: one step of the loop past a successful existence
      check, with the recipient's events and the state the rest of the loop
      starts from named, so that the inductive lemmas about `FanOut` step
      without unfolding it. */
  lemma FanOutNext(st: State, conn: Conn, msg: ClientSendMessage, to: seq<Bytes>, faults: nat -> RecipientFaults, i: nat)
      returns (next: State, t: seq<Event>)
    requires i < |to| && !faults(i).checkFails
    ensures FanOut(st, conn, msg, to, faults, i) == Then(t, FanOut(next, conn, msg, to, faults, i + 1))
    ensures Carries(t, Forwarded(msg))
    ensures msg.sender !in st.online ==> msg.sender !in next.online && NoReplies(t)
  {
    var v := Visit(st, conn, msg, to[i], faults(i));
    next, t := v.out.state, v.out.trace;
  }

  /** A failed existence check ends the loop with the sender dropped. */
  lemma FanOutStops(st: State, conn: Conn, msg: ClientSendMessage, to: seq<Bytes>, faults: nat -> RecipientFaults, i: nat)
    requires i < |to| && faults(i).checkFails
    ensures FanOut(st, conn, msg, to, faults, i) == RemoveAndCloseOnlineClient(st, conn, msg.sender)
  {
  }

  /** A failed existence check for any recipient `k` from `i` on (the
      loop stops at `k` or before it) drops the sender and closes the
      connection last. */
  lemma {:induction false} FanOutAbortCloses(st: State, conn: Conn, msg: ClientSendMessage, to: seq<Bytes>, faults: nat -> RecipientFaults, i: nat, k: nat)
    requires i <= k < |to| && faults(k).checkFails
    decreases k - i
    ensures EndsClosed(FanOut(st, conn, msg, to, faults, i), conn, msg.sender)
  {
    if faults(i).checkFails {
      FanOutStops(st, conn, msg, to, faults, i);
    } else {
      var next, t := FanOutNext(st, conn, msg, to, faults, i);
      FanOutAbortCloses(next, conn, msg, to, faults, i + 1, k);
      ThenEndsClosed(t, FanOut(next, conn, msg, to, faults, i + 1), conn, msg.sender);
    }
  }

  /** The recipients after a failed existence check are irrelevant: the
      loop never looks them up, answers for them or delivers to them. */
  lemma {:induction false} FanOutAbortCut(st: State, conn: Conn, msg: ClientSendMessage, to: seq<Bytes>, faults: nat -> RecipientFaults, i: nat, k: nat)
    requires i <= k < |to| && faults(k).checkFails
    decreases k - i
    ensures FanOut(st, conn, msg, to, faults, i) == FanOut(st, conn, msg, to[..k + 1], faults, i)
  {
    var cut := to[..k + 1];
    assert cut[i] == to[i];
    if faults(i).checkFails {
      FanOutStops(st, conn, msg, to, faults, i);
      FanOutStops(st, conn, msg, cut, faults, i);
    } else {
      var v := Visit(st, conn, msg, to[i], faults(i));
      FanOutAbortCut(v.out.state, conn, msg, to, faults, i + 1, k);
      FanOutSameStep(st, conn, msg, to, cut, faults, i);
    }
  }

  /** Two recipient lists that agree at `i` and lead to the same outcome
      from `i + 1` on lead to the same outcome from `i` on. */
  lemma FanOutSameStep(st: State, conn: Conn, msg: ClientSendMessage, a: seq<Bytes>, b: seq<Bytes>, faults: nat -> RecipientFaults, i: nat)
    requires i < |a| && i < |b| && a[i] == b[i] && !faults(i).checkFails
    requires var v := Visit(st, conn, msg, a[i], faults(i));
      FanOut(v.out.state, conn, msg, a, faults, i + 1) == FanOut(v.out.state, conn, msg, b, faults, i + 1)
    ensures FanOut(st, conn, msg, a, faults, i) == FanOut(st, conn, msg, b, faults, i)
  {
    FanOutUnfold(st, conn, msg, a, faults, i);
    FanOutUnfold(st, conn, msg, b, faults, i);
  }

  /** The acknowledgement a recipient earns when nothing fails: `RCV` for a
      registered user, `NSU` otherwise. */
  function ExpectedAck(users: map<Bytes, UserData>, user: Bytes): Flag {
    if user in users then Received else NoSuchUser
  }

  /** The acknowledgements, one per recipient in order, when nothing fails. */
  function ExpectedAcks(users: map<Bytes, UserData>, to: seq<Bytes>): (r: seq<Flag>)
    ensures |r| == |to|
  {
    if to == [] then [] else [ExpectedAck(users, to[0])] + ExpectedAcks(users, to[1..])
  }

  /** No call made for a recipient fails. */
  predicate Benign(f: RecipientFaults) {
    !f.checkFails && f.ackOk && !f.insertFails
  }

  /** With every call succeeding, an online sender that is not among the
      recipients stays online and gets exactly one acknowledgement for one
      recipient visit. */
  lemma VisitBenign(st: State, conn: Conn, msg: ClientSendMessage, user: Bytes, f: RecipientFaults)
    requires Benign(f) && msg.sender in st.online && msg.sender != user
    requires user in st.db.users ==> user in st.db.mailboxes
    ensures var v := Visit(st, conn, msg, user, f);
      && !v.abort
      && msg.sender in v.out.state.online
      && Acks(v.out.trace, conn) == [ExpectedAck(st.db.users, user)]
  {
    var v := Visit(st, conn, msg, user, f);
    if user in st.db.users {
      var d := Dispatch(st, conn, msg, user, f);
      NoRepliesAcks(d.trace, conn);
      AcksAppend(d.trace, [Reply(conn, Received)], conn);
      assert v.out.trace == d.trace + [Reply(conn, Received)];
    } else {
      assert v.out.trace == [Reply(conn, NoSuchUser)];
    }
  }

  /** One acknowledgement per recipient: when every call succeeds, the
      sender is online and not addressed, and every registered recipient has
      a mailbox, the sending connection receives `RCV` or `NSU` for each
      recipient in order, and the sender stays online. */
  lemma {:induction false} FanOutAcks(st: State, conn: Conn, msg: ClientSendMessage, to: seq<Bytes>, faults: nat -> RecipientFaults, i: nat)
    requires i <= |to|
    requires forall j :: i <= j < |to| ==> Benign(faults(j))
    requires msg.sender in st.online && msg.sender !in to
    requires forall u :: u in to && u in st.db.users ==> u in st.db.mailboxes
    decreases |to| - i
    ensures var r := FanOut(st, conn, msg, to, faults, i);
      && Acks(r.trace, conn) == ExpectedAcks(st.db.users, to[i..])
      && msg.sender in r.state.online
  {
    if i < |to| {
      var v := Visit(st, conn, msg, to[i], faults(i));
      VisitBenign(st, conn, msg, to[i], faults(i));
      FanOutUnfold(st, conn, msg, to, faults, i);
      FanOutAcks(v.out.state, conn, msg, to, faults, i + 1);
      AcksAppend(v.out.trace, FanOut(v.out.state, conn, msg, to, faults, i + 1).trace, conn);
      assert to[i..][1..] == to[i + 1..];
    }
  }

  /** Everything the loop pushes or enqueues is the forwarded message, whose
      sender is the name the client wrote; and a sender that is not online
      gets no acknowledgement at all, while deliveries still happen. */
  lemma {:induction false} FanOutClaimedSender(st: State, conn: Conn, msg: ClientSendMessage, to: seq<Bytes>, faults: nat -> RecipientFaults, i: nat)
    requires i <= |to|
    ensures var r := FanOut(st, conn, msg, to, faults, i);
      && Carries(r.trace, Forwarded(msg))
      && (msg.sender !in st.online ==> NoReplies(r.trace))
  {
    FanOutCarries(st, conn, msg, to, faults, i);
    if msg.sender !in st.online {
      FanOutNoReplies(st, conn, msg, to, faults, i);
    }
  }

  /** Whatever the loop pushes or enqueues is the forwarded message. */
  lemma {:induction false} FanOutCarries(st: State, conn: Conn, msg: ClientSendMessage, to: seq<Bytes>, faults: nat -> RecipientFaults, i: nat)
    requires i <= |to|
    decreases |to| - i, 1
    ensures Carries(FanOut(st, conn, msg, to, faults, i).trace, Forwarded(msg))
  {
    if i < |to| && !faults(i).checkFails {
      FanOutCarriesStep(st, conn, msg, to, faults, i);
    } else {
      FanOutQuiet(st, conn, msg, to, faults, i);
    }
  }

  /** The inductive step of `FanOutCarries`, past a successful existence
      check; kept apart so each proof stays small. */
  lemma {:induction false} FanOutCarriesStep(st: State, conn: Conn, msg: ClientSendMessage, to: seq<Bytes>, faults: nat -> RecipientFaults, i: nat)
    requires i < |to| && !faults(i).checkFails
    decreases |to| - i, 0
    ensures Carries(FanOut(st, conn, msg, to, faults, i).trace, Forwarded(msg))
  {
    var next, t := FanOutNext(st, conn, msg, to, faults, i);
    FanOutCarries(next, conn, msg, to, faults, i + 1);
    CarriesThen(FanOut(st, conn, msg, to, faults, i), t, FanOut(next, conn, msg, to, faults, i + 1), Forwarded(msg));
  }

  /** The loop answers nothing when the sender is offline from the start. */
  lemma {:induction false} FanOutNoReplies(st: State, conn: Conn, msg: ClientSendMessage, to: seq<Bytes>, faults: nat -> RecipientFaults, i: nat)
    requires i <= |to| && msg.sender !in st.online
    decreases |to| - i, 1
    ensures NoReplies(FanOut(st, conn, msg, to, faults, i).trace)
  {
    if i < |to| && !faults(i).checkFails {
      FanOutNoRepliesStep(st, conn, msg, to, faults, i);
    } else {
      FanOutQuiet(st, conn, msg, to, faults, i);
    }
  }

  /** The inductive step of `FanOutNoReplies`, past a successful existence
      check; kept apart so each proof stays small. */
  lemma {:induction false} FanOutNoRepliesStep(st: State, conn: Conn, msg: ClientSendMessage, to: seq<Bytes>, faults: nat -> RecipientFaults, i: nat)
    requires i < |to| && !faults(i).checkFails && msg.sender !in st.online
    decreases |to| - i, 0
    ensures NoReplies(FanOut(st, conn, msg, to, faults, i).trace)
  {
    var next, t := FanOutNext(st, conn, msg, to, faults, i);
    FanOutNoReplies(next, conn, msg, to, faults, i + 1);
    NoRepliesThen(FanOut(st, conn, msg, to, faults, i), t, FanOut(next, conn, msg, to, faults, i + 1));
  }

  /** A loop that has no recipient left, or whose next existence check
      fails, neither answers nor delivers. */
  lemma FanOutQuiet(st: State, conn: Conn, msg: ClientSendMessage, to: seq<Bytes>, faults: nat -> RecipientFaults, i: nat)
    requires i <= |to|
    requires i == |to| || faults(i).checkFails
    ensures NoReplies(FanOut(st, conn, msg, to, faults, i).trace)
    ensures Carries(FanOut(st, conn, msg, to, faults, i).trace, Forwarded(msg))
  {
    if i < |to| {
      assert FanOut(st, conn, msg, to, faults, i).trace == [Close(conn)];
    }
  }

  /** `messageHandler` on a valid message not addressed to its sender is the
      recipient loop over the trimmed message. */
  lemma MessageHandlerFansOut(st: State, conn: Conn, m: ClientSendMessage, faults: nat -> RecipientFaults)
    requires MessageValidator(m).Some? && m.sender !in m.to.value
    ensures var v := MessageValidator(m).value;
      && v.to == m.to && v.sender == m.sender
      && MessageHandler(st, conn, m, faults) == FanOut(st, conn, v, m.to.value, faults, 0)
  {
  }

  /** One acknowledgement per recipient, in order, for a whole message. */
  lemma MessageHandlerAcks(st: State, conn: Conn, m: ClientSendMessage, faults: nat -> RecipientFaults)
    requires MessageValidator(m).Some? && m.sender !in m.to.value
    requires forall j :: 0 <= j < |m.to.value| ==> Benign(faults(j))
    requires m.sender in st.online
    requires forall u :: u in m.to.value && u in st.db.users ==> u in st.db.mailboxes
    ensures var r := MessageHandler(st, conn, m, faults);
      && Acks(r.trace, conn) == ExpectedAcks(st.db.users, m.to.value)
      && m.sender in r.state.online
  {
    var v := MessageValidator(m).value;
    MessageHandlerFansOut(st, conn, m, faults);
    FanOutAcks(st, conn, v, m.to.value, faults, 0);
    assert m.to.value[0..] == m.to.value;
  }

  /** The sender field is trusted: a session may name ANOTHER online user as
      the sender and address that user. The named user is dropped from the
      registry, and its own connection is not closed; only the sending
      connection is. */
  lemma SpoofedSenderEvicted(st: State, conn: Conn, m: ClientSendMessage, faults: nat -> RecipientFaults)
    requires MessageValidator(m).Some? && m.sender in m.to.value
    requires m.sender in st.online && st.online[m.sender] != conn
    ensures var r := MessageHandler(st, conn, m, faults);
      && m.sender !in r.state.online
      && Close(st.online[m.sender]) !in r.trace
  {
  }

  // ----- receiver ------------------------------------------------------------

  /** A failed receive ends the session, dropping the user if still online. */
  function ReceiveFailed(st: State, conn: Conn, userName: Bytes): (r: Outcome)
    ensures userName !in r.state.online
    ensures userName !in st.online ==> r == Outcome(st, [])
    ensures userName in st.online ==> r == RemoveAndCloseOnlineClient(st, conn, userName)
  {
    if CheckIsClientOnline(st.online, userName) then RemoveAndCloseOnlineClient(st, conn, userName)
    else Outcome(st, [])
  }

  /** `runReceiver` from frame `i` on. `frames` are the frames the
      connection delivers before its first receive error, each decoded
      (`None` when decoding fails). A decode failure drops the user and ends
      the session. Each message is handled before the next receive; once a
      handler closed this connection, the next receive fails. */
  function RunReceiver(st: State, conn: Conn, userName: Bytes, frames: seq<Option<ClientSendMessage>>, handle: nat -> nat -> RecipientFaults, i: nat): (r: Outcome)
    requires i <= |frames|
    decreases |frames| - i
    ensures userName !in r.state.online
    ensures SubRegistry(r.state.online, st.online)
    ensures r.state.db.users == st.db.users && r.state.db.ids == st.db.ids
    ensures r.state.db.mailboxes.Keys == st.db.mailboxes.Keys
  {
    if i == |frames| then ReceiveFailed(st, conn, userName)
    else
      match frames[i]
      case None => RemoveAndCloseOnlineClient(st, conn, userName)
      case Some(m) =>
        var h := MessageHandler(st, conn, m, handle(i));
        if Close(conn) in h.trace then Then(h.trace, ReceiveFailed(h.state, conn, userName))
        else Then(h.trace, RunReceiver(h.state, conn, userName, frames, handle, i + 1))
  }

  /** A frame that fails to decode ends the session with the user dropped
      and the connection closed, whatever frames follow. */
  lemma RunReceiverDecodeFailure(st: State, conn: Conn, userName: Bytes, frames: seq<Option<ClientSendMessage>>, handle: nat -> nat -> RecipientFaults, i: nat)
    requires i < |frames| && frames[i].None?
    ensures var r := RunReceiver(st, conn, userName, frames, handle, i);
      && r.trace == [Close(conn)]
      && r.state == RemoveAndCloseOnlineClient(st, conn, userName).state
      && r == RunReceiver(st, conn, userName, frames[..i + 1], handle, i)
  {
    assert frames[..i + 1][i] == frames[i];
  }

  /** Every decoded frame reaches `messageHandler`: the session's events
      begin with that handler's events, and unless the handler closed the
      connection the loop receives the next frame from the state the handler
      left. */
  lemma RunReceiverHandles(st: State, conn: Conn, userName: Bytes, frames: seq<Option<ClientSendMessage>>, handle: nat -> nat -> RecipientFaults, i: nat)
    requires i < |frames| && frames[i].Some?
    ensures var h := MessageHandler(st, conn, frames[i].value, handle(i));
      var r := RunReceiver(st, conn, userName, frames, handle, i);
      && |h.trace| <= |r.trace| && r.trace[..|h.trace|] == h.trace
      && (Close(conn) !in h.trace ==> r == Then(h.trace, RunReceiver(h.state, conn, userName, frames, handle, i + 1)))
  {
  }

  /** A session relays a benign frame addressed to one registered user who
      is offline: handling it appends the forwarded message to that user's
      mailbox and answers the sender `RCV`, and the session then goes on to
      its next frame. The state reached is the one `StoreAndForward` starts
      from, so the recipient's next clean session receives the message. */
  lemma RunReceiverRelaysOffline(st: State, conn: Conn, userName: Bytes, frames: seq<Option<ClientSendMessage>>, handle: nat -> nat -> RecipientFaults, i: nat, user: Bytes)
    requires i < |frames| && frames[i].Some? && MessageValidator(frames[i].value).Some?
    requires frames[i].value.to.value == [user] && frames[i].value.sender != user
    requires frames[i].value.sender in st.online
    requires user in st.db.users && user !in st.online && user in st.db.mailboxes
    requires Benign(handle(i)(0))
    ensures var v := MessageValidator(frames[i].value).value;
      var h := MessageHandler(st, conn, frames[i].value, handle(i));
      && h.trace == [Enqueue(user, Forwarded(v)), Reply(conn, Received)]
      && h.state == Dispatch(st, conn, v, user, handle(i)(0)).state
      && h.state.db.mailboxes[user] == st.db.mailboxes[user] + [Forwarded(v)]
    ensures var h := MessageHandler(st, conn, frames[i].value, handle(i));
      var r := RunReceiver(st, conn, userName, frames, handle, i);
      && r == Then(h.trace, RunReceiver(h.state, conn, userName, frames, handle, i + 1))
      && Reply(conn, Received) in r.trace
  {
    var m := frames[i].value;
    var v := MessageValidator(m).value;
    var f := handle(i)(0);
    var d := Dispatch(st, conn, v, user, f);
    assert v.to.value == [user] && v.sender !in v.to.value;
    FanOutUnfold(st, conn, v, [user], handle(i), 0);
    assert Visit(st, conn, v, user, f).out == Outcome(d.state, d.trace + [Reply(conn, Received)]);
    var h := MessageHandler(st, conn, m, handle(i));
    assert h.trace == [Enqueue(user, Forwarded(v)), Reply(conn, Received)];
    RunReceiverHandles(st, conn, userName, frames, handle, i);
    assert RunReceiver(st, conn, userName, frames, handle, i).trace[1] == Reply(conn, Received);
  }

  // ----- the messaging session ---------------------------------------------

  /** The outcomes of the external calls of one messaging session. */
  datatype MessengerOracle = MessengerOracle(
    auth: AuthOracle,
    approveOk: bool,
    changeIpFails: bool,
    listFails: bool,
    flush: nat -> FlushFaults,
    frames: seq<Option<ClientSendMessage>>,
    handle: nat -> nat -> RecipientFaults)

  /** `Messenger`: authenticate; refuse a user already online; join the
      registry and send `APV`; record the address; list the mailbox and
      flush it; then run the receiver. A failed mailbox listing drops the
      user and closes the connection, after which the receiver's first read
      fails. When the flush closed the connection (a failed delete returns
      at once; a failed push leaves the receiver to fail on its first read)
      the session ends with the user offline. */
  function Messenger(st: State, conn: Conn, o: MessengerOracle): (r: Outcome)
    ensures var a := CheckAuthentication(st.db, conn, o.auth);
      a.userName == [] || CheckIsClientOnline(st.online, a.userName) ==>
        r == Outcome(st, a.trace + [Close(conn)])
    ensures var a := CheckAuthentication(st.db, conn, o.auth);
      a.userName != [] && !CheckIsClientOnline(st.online, a.userName) ==>
        && r.trace != [] && r.trace[0] == Reply(conn, Approve)
        && a.userName !in r.state.online
    ensures var a := CheckAuthentication(st.db, conn, o.auth);
      a.userName != [] && !CheckIsClientOnline(st.online, a.userName)
      && (!o.approveOk || o.changeIpFails || o.listFails) ==>
        r.trace == [Reply(conn, Approve), Close(conn)] && r.state == st
    ensures SubRegistry(r.state.online, st.online)
    ensures r.state.db.users == st.db.users && r.state.db.ids == st.db.ids
    ensures r.state.db.mailboxes.Keys == st.db.mailboxes.Keys
  {
    var a := CheckAuthentication(st.db, conn, o.auth);
    if a.userName == [] || CheckIsClientOnline(st.online, a.userName) then Outcome(st, a.trace + [Close(conn)])
    else
      var name := a.userName;
      var joined := st.(online := AddOnlineClient(st.online, conn, name));
      var approve := [Reply(conn, Approve)];
      if !o.approveOk || o.changeIpFails then Then(approve, RemoveAndCloseOnlineClient(joined, conn, name))
      else
        match (if o.listFails then None else GetMessages(joined.db, name))
        case None =>
          var gone := RemoveAndCloseOnlineClient(joined, conn, name);
          Then(approve, Then(gone.trace, ReceiveFailed(gone.state, conn, name)))
        case Some(msgs) => Then(approve, FlushThenReceive(joined, conn, name, msgs, o))
  }

  /** The part of `Messenger` after the mailbox listing: flush the listed
      messages, then, unless the flush closed the connection, receive. The
      user is offline at the end, and nobody else's entry has changed. */
  function FlushThenReceive(joined: State, conn: Conn, name: Bytes, msgs: seq<MessageData>, o: MessengerOracle): (r: Outcome)
    ensures name !in r.state.online
    ensures SubRegistry(r.state.online, joined.online)
    ensures r.state.db.users == joined.db.users && r.state.db.ids == joined.db.ids
    ensures r.state.db.mailboxes.Keys == joined.db.mailboxes.Keys
  {
    var f := Flush(joined, conn, name, msgs, o.flush, 0);
    if Close(conn) in f.trace then Then(f.trace, ReceiveFailed(f.state, conn, name))
    else Then(f.trace, RunReceiver(f.state, conn, name, o.frames, o.handle, 0))
  }

  /** A session that joins and lists its mailbox flushes it right after the
      `APV`: the events that follow are the flush loop's, in which every
      push comes right after the delete of the same message. */
  lemma MessengerFlushesFirst(st: State, conn: Conn, o: MessengerOracle)
    requires var a := CheckAuthentication(st.db, conn, o.auth);
      && a.userName != [] && !CheckIsClientOnline(st.online, a.userName)
      && o.approveOk && !o.changeIpFails && !o.listFails
      && a.userName in st.db.mailboxes
    ensures var name := CheckAuthentication(st.db, conn, o.auth).userName;
      var f := Flush(st.(online := AddOnlineClient(st.online, conn, name)), conn, name, st.db.mailboxes[name], o.flush, 0);
      var r := Messenger(st, conn, o);
      && |r.trace| >= 1 + |f.trace|
      && r.trace[1..1 + |f.trace|] == f.trace
      && DequeuedBeforePushed(f.trace, conn, name)
  {
    var name := CheckAuthentication(st.db, conn, o.auth).userName;
    var joined := st.(online := AddOnlineClient(st.online, conn, name));
    var msgs := st.db.mailboxes[name];
    assert Messenger(st, conn, o) == Then([Reply(conn, Approve)], FlushThenReceive(joined, conn, name, msgs, o));
    FlushThenReceivePrefix(joined, conn, name, msgs, o);
    FlushDequeuesFirst(joined, conn, name, msgs, o.flush, 0);
  }

  /** Helper for `MessengerFlushesFirst`: the flush's events open the run. */
  lemma FlushThenReceivePrefix(joined: State, conn: Conn, name: Bytes, msgs: seq<MessageData>, o: MessengerOracle)
    ensures var f := Flush(joined, conn, name, msgs, o.flush, 0);
      var r := FlushThenReceive(joined, conn, name, msgs, o);
      |r.trace| >= |f.trace| && r.trace[..|f.trace|] == f.trace
  {
  }

  /** A flush in which every delete and push succeeds pushes each listed
      message on the session's connection and leaves no copy of it in the
      mailbox. */
  lemma CleanFlushDelivers(st: State, conn: Conn, userName: Bytes, msgs: seq<MessageData>, faults: nat -> FlushFaults, m: MessageData)
    requires userName in st.db.mailboxes && m in msgs
    requires CleanFlush(faults, 0, |msgs|)
    ensures var r := Flush(st, conn, userName, msgs, faults, 0);
      && Push(conn, m) in r.trace
      && m !in r.state.db.mailboxes[userName]
  {
    var fl := Flush(st, conn, userName, msgs, faults, 0);
    FlushDequeuesFirst(st, conn, userName, msgs, faults, 0);
    DequeuedBeforePushedIndex(fl.trace, conn, userName);
    FlushPushesPrefix(st, conn, userName, msgs, faults, 0);
    assert FirstDeleteFailure(|msgs|, faults, 0) == |msgs|;
    assert msgs[0..|msgs|] == msgs;
    PushesMembers(fl.trace, m);
    var j :| 0 <= j < |fl.trace| && fl.trace[j].Push? && fl.trace[j].message == m;
    assert fl.trace[j] == Push(conn, m);
    FlushPurges(st, conn, userName, msgs, faults, 0);
    assert msgs[0..] == msgs;
  }

  /** A session that joins and flushes its mailbox without a failure pushes
      every message of the mailbox on its own connection, and the flush
      leaves no copy of any of them in the mailbox. */
  lemma CleanSessionDelivers(st: State, conn: Conn, o: MessengerOracle, m: MessageData)
    requires var a := CheckAuthentication(st.db, conn, o.auth);
      && a.userName != [] && !CheckIsClientOnline(st.online, a.userName)
      && o.approveOk && !o.changeIpFails && !o.listFails
      && a.userName in st.db.mailboxes
      && m in st.db.mailboxes[a.userName]
      && CleanFlush(o.flush, 0, |st.db.mailboxes[a.userName]|)
    ensures Push(conn, m) in Messenger(st, conn, o).trace
    ensures var name := CheckAuthentication(st.db, conn, o.auth).userName;
      m !in Flush(st.(online := AddOnlineClient(st.online, conn, name)), conn, name, st.db.mailboxes[name], o.flush, 0).state.db.mailboxes[name]
  {
    var name := CheckAuthentication(st.db, conn, o.auth).userName;
    var fl := Flush(st.(online := AddOnlineClient(st.online, conn, name)), conn, name, st.db.mailboxes[name], o.flush, 0);
    CleanFlushDelivers(st.(online := AddOnlineClient(st.online, conn, name)), conn, name, st.db.mailboxes[name], o.flush, m);
    MessengerFlushesFirst(st, conn, o);
    var j :| 0 <= j < |fl.trace| && fl.trace[j] == Push(conn, m);
    var t := Messenger(st, conn, o).trace;
    assert t[1 + j] == t[1..1 + |fl.trace|][j];
  }

  /** Store and forward: a message whose recipient is offline but has a
      mailbox is appended to that mailbox; the recipient's next session,
      once it authenticates, joins and flushes without a failure, pushes
      the message on its own connection, and the flush leaves no copy of
      it in the mailbox. */
  lemma StoreAndForward(st: State, conn: Conn, msg: ClientSendMessage, user: Bytes, f: RecipientFaults, conn2: Conn, o: MessengerOracle)
    requires user !in st.online && user in st.db.mailboxes && !f.insertFails
    requires user != [] && CheckAuthentication(st.db, conn2, o.auth).userName == user
    requires o.approveOk && !o.changeIpFails && !o.listFails
    requires CleanFlush(o.flush, 0, |st.db.mailboxes[user]| + 1)
    ensures var later := Dispatch(st, conn, msg, user, f).state;
      && Forwarded(msg) in later.db.mailboxes[user]
      && Push(conn2, Forwarded(msg)) in Messenger(later, conn2, o).trace
    ensures var later := Dispatch(st, conn, msg, user, f).state;
      var joined := later.(online := AddOnlineClient(later.online, conn2, user));
      Forwarded(msg) !in Flush(joined, conn2, user, later.db.mailboxes[user], o.flush, 0).state.db.mailboxes[user]
  {
    var later := Dispatch(st, conn, msg, user, f).state;
    assert later.db.mailboxes[user] == st.db.mailboxes[user] + [Forwarded(msg)];
    assert CheckAuthentication(later.db, conn2, o.auth).userName == user;
    CleanSessionDelivers(later, conn2, o, Forwarded(msg));
  }
}

=== FILE: register.dfy ===
/** The registration session: one frame, validated, checked against the
    store, then a user row and a mailbox table are created, in two steps
    that are not atomic. The registry is never touched and the connection
    is always closed at the end. */
module RegisterHandler {
  import opened Common
  import opened Text
  import opened Wire
  import opened Store
  import opened Controller

  /** `validateRegistration`: the trimmed display name and the trimmed
      username are non-empty, the client id is valid, the UNTRIMMED display
      name and username are at most 50 bytes, and the username holds no
      space byte. */
  function ValidateRegistration(reg: Registration): (ok: bool)
    ensures ok <==>
      && !AllSpace(reg.name) && !AllSpace(reg.userName)
      && ValidClientID(reg.clientID)
      && |reg.name| <= MaxNameLength && |reg.userName| <= MaxNameLength
      && Space !in reg.userName
  {
    TrimSpaceEmptyIffAllSpace(reg.name);
    TrimSpaceEmptyIffAllSpace(reg.userName);
    if TrimSpace(reg.name) == [] || TrimSpace(reg.userName) == []
       || reg.clientID.None? || reg.clientID.value == EmptySha1 then false
    else if |reg.clientID.value| != Sha1Size || |reg.name| > MaxNameLength
       || |reg.userName| > MaxNameLength then false
    else if Space in reg.userName then false
    else true
  }

  /** Whatever registration accepts, authentication accepts: a registered
      identity can open sessions. */
  lemma ValidRegistrationAuthenticates(reg: Registration)
    requires ValidateRegistration(reg)
    ensures ValidateAuthentication(reg.Credentials())
  {
    assert reg.userName != [];
  }

  /** The converse fails: a username made of one tab passes authentication
      (only the space byte is refused there) but not registration, whose
      check trims all whitespace. */
  lemma AuthenticationLaxerThanRegistration(id: Bytes)
    requires ValidClientID(Some(id))
    ensures var reg := Registration(Some(id), [0x09], [0x61]);
      ValidateAuthentication(reg.Credentials()) && !ValidateRegistration(reg)
  {
    var reg := Registration(Some(id), [0x09], [0x61]);
    assert AllSpace(reg.userName);
  }

  /** The 50-byte limit applies before trimming: a display name of two
      spaces followed by 49 bytes without whitespace at either end is
      refused although what would be stored is those 49 bytes. */
  lemma NameLimitIsUntrimmed(id: Bytes, userName: Bytes, w: Bytes)
    requires ValidClientID(Some(id))
    requires |w| == 49 && !IsSpace(w[0]) && !IsSpace(w[48])
    ensures var reg := Registration(Some(id), userName, [Space, Space] + w);
      && TrimSpace(reg.name) == w
      && !ValidateRegistration(reg)
  {
    var name := [Space, Space] + w;
    assert TrimStart(name, 2) == 2;
    assert TrimStart(name, 0) == 2;
    assert TrimStop(name, 2, |name|) == |name|;
    assert name[2..|name|] == w;
  }

  /** A registration by another session whose row commits between this
      session's existence checks and its insert. */
  datatype Rival = Rival(userName: Bytes, row: UserData)

  /** The store the insert meets: the rival's row, if any, is in it. */
  function Interleave(db: Store, rival: Option<Rival>): (r: Store)
    ensures Consistent(db) ==> Consistent(r)
    ensures db.users.Keys <= r.users.Keys && db.ids.Keys <= r.ids.Keys
    ensures r.mailboxes == db.mailboxes
    ensures rival.None? ==> r == db
  {
    match rival
    case None => db
    case Some(x) => InsertUser(db, x.userName, x.row, false).1
  }

  /** Neither the client id nor the username of `reg` is taken in `db`. */
  predicate Unclaimed(db: Store, reg: Registration)
    requires reg.clientID.Some?
  {
    reg.clientID.value !in db.ids && reg.userName !in db.users
  }

  /** The outcomes of the session's external calls: the frame as decoded
      (`None` when receiving or decoding failed), the two existence checks,
      a rival registration, the insert and the table creation. Whether the
      response send succeeds changes nothing: the connection is closed
      either way. */
  datatype RegisterOracle = RegisterOracle(
    frame: Option<Registration>,
    checkIdFails: bool,
    checkNameFails: bool,
    rival: Option<Rival>,
    insertFails: bool,
    createFails: bool)

  /** The frame arrived, is valid, and both existence checks ran. */
  predicate Checked(o: RegisterOracle) {
    o.frame.Some? && ValidateRegistration(o.frame.value) && !o.checkIdFails && !o.checkNameFails
  }

  /** The insert and the table creation for a registration that passed
      every check. */
  function Enroll(st: State, conn: Conn, reg: Registration, o: RegisterOracle): (r: Outcome)
    requires reg.clientID.Some?
    ensures r.state.online == st.online
    ensures Consistent(st.db) ==> Consistent(r.state.db)
    ensures var seen := Interleave(st.db, o.rival);
      && (!Unclaimed(seen, reg) ==> r == Outcome(st.(db := seen), [Reply(conn, InvalidUserName), Close(conn)]))
      && (Unclaimed(seen, reg) && o.insertFails ==> r == Outcome(st.(db := seen), [Close(conn)]))
      && (Unclaimed(seen, reg) && !o.insertFails ==>
            && reg.userName in r.state.db.users
            && r.state.db.users[reg.userName] == UserData(reg.clientID.value, TrimSpace(reg.name))
            && reg.clientID.value in r.state.db.ids
            && r.state.db.ids[reg.clientID.value] == reg.userName)
      && (Unclaimed(seen, reg) && !o.insertFails && o.createFails ==>
            r.trace == [Close(conn)] && r.state.db.mailboxes == st.db.mailboxes)
      && (Unclaimed(seen, reg) && !o.insertFails && !o.createFails ==>
            && r.trace == [Reply(conn, Approve), Close(conn)]
            && reg.userName in r.state.db.mailboxes
            && (reg.userName in st.db.mailboxes ==> r.state.db.mailboxes[reg.userName] == st.db.mailboxes[reg.userName]))
  {
    var seen := Interleave(st.db, o.rival);
    var row := UserData(reg.clientID.value, TrimSpace(reg.name));
    var inserted := InsertUser(seen, reg.userName, row, o.insertFails);
    match inserted.0
    case Duplicate => Outcome(st.(db := seen), [Reply(conn, InvalidUserName), Close(conn)])
    case InsertFailed => Outcome(st.(db := seen), [Close(conn)])
    case Inserted =>
      if o.createFails then Outcome(st.(db := inserted.1), [Close(conn)])
      else Outcome(st.(db := CreateUserTable(inserted.1, reg.userName)), [Reply(conn, Approve), Close(conn)])
  }

  /** The existence checks of a valid registration, then `Enroll`. */
  function Screen(st: State, conn: Conn, reg: Registration, o: RegisterOracle): (r: Outcome)
    requires reg.clientID.Some?
    ensures r.state.online == st.online
    ensures Consistent(st.db) ==> Consistent(r.state.db)
    ensures reg.clientID.value in st.db.ids ==> r == Outcome(st, [Reply(conn, AlreadyReg), Close(conn)])
    ensures reg.clientID.value !in st.db.ids && o.checkNameFails ==> r == Outcome(st, [Close(conn)])
    ensures reg.clientID.value !in st.db.ids && !o.checkNameFails && reg.userName in st.db.users ==>
      r == Outcome(st, [Reply(conn, InvalidUserName), Close(conn)])
    ensures reg.clientID.value !in st.db.ids && !o.checkNameFails && reg.userName !in st.db.users ==>
      r == Enroll(st, conn, reg, o)
  {
    if reg.clientID.value in st.db.ids then Outcome(st, [Reply(conn, AlreadyReg), Close(conn)])
    else if o.checkNameFails then Outcome(st, [Close(conn)])
    else if reg.userName in st.db.users then Outcome(st, [Reply(conn, InvalidUserName), Close(conn)])
    else Enroll(st, conn, reg, o)
  }

  /** `Register`. A known client id is answered `ART` before the username
      is looked at; a taken username, found by the check or by a
      duplicate-key error from the insert, is answered `IUN`. The user row
      is inserted first, with the display name trimmed, and the mailbox
      table is created next; `APV` is sent only when both succeed. */
  function Register(st: State, conn: Conn, o: RegisterOracle): (r: Outcome)
    ensures r.state.online == st.online
    ensures Consistent(st.db) ==> Consistent(r.state.db)
    ensures o.frame.None? || !ValidateRegistration(o.frame.value) || o.checkIdFails ==>
      r == Outcome(st, [Close(conn)])
  {
    match o.frame
    case None => Outcome(st, [Close(conn)])
    case Some(reg) =>
      if !ValidateRegistration(reg) || o.checkIdFails then Outcome(st, [Close(conn)])
      else Screen(st, conn, reg, o)
  }

  /** The outcome of `Register` for a frame that passed validation and
      the client id check. */
  lemma RegisterScreens(st: State, conn: Conn, o: RegisterOracle)
    requires o.frame.Some? && ValidateRegistration(o.frame.value) && !o.checkIdFails
    ensures Register(st, conn, o) == Screen(st, conn, o.frame.value, o)
  {
  }

  /** `ART` takes precedence: a known client id is answered `ART` whatever
      the username, and the store is left alone; nothing else is answered
      `ART`. */
  lemma RegisterAlreadyRegistered(st: State, conn: Conn, o: RegisterOracle)
    requires o.frame.Some? && ValidateRegistration(o.frame.value) && !o.checkIdFails
    ensures var r := Register(st, conn, o);
      (r.trace == [Reply(conn, AlreadyReg), Close(conn)] <==> o.frame.value.clientID.value in st.db.ids)
    ensures o.frame.value.clientID.value in st.db.ids ==>
      Register(st, conn, o) == Outcome(st, [Reply(conn, AlreadyReg), Close(conn)])
  {
    RegisterScreens(st, conn, o);
    if o.frame.value.clientID.value !in st.db.ids {
      ScreenNeverAlreadyReg(st, conn, o.frame.value, o);
    }
  }

  /** An unknown client id is never answered `ART`. */
  lemma ScreenNeverAlreadyReg(st: State, conn: Conn, reg: Registration, o: RegisterOracle)
    requires reg.clientID.Some? && reg.clientID.value !in st.db.ids
    ensures Screen(st, conn, reg, o).trace != [Reply(conn, AlreadyReg), Close(conn)]
  {
    var t := Screen(st, conn, reg, o).trace;
    if |t| == 2 {
      assert t[0] != Reply(conn, AlreadyReg);
    }
  }

  /** A store error in the username check, reached only for an unknown
      client id, closes the connection without a response. */
  lemma RegisterNameCheckFails(st: State, conn: Conn, o: RegisterOracle)
    requires o.frame.Some? && ValidateRegistration(o.frame.value) && !o.checkIdFails
    requires o.frame.value.clientID.value !in st.db.ids && o.checkNameFails
    ensures Register(st, conn, o) == Outcome(st, [Close(conn)])
  {
    RegisterScreens(st, conn, o);
  }

  /** `IUN` is sent exactly when the id is free, the username check ran,
      and the username is taken: in the store, or by a rival's row the
      insert collides with. No `APV` goes with it. */
  lemma RegisterInvalidUserName(st: State, conn: Conn, o: RegisterOracle)
    requires Checked(o)
    ensures var reg := o.frame.value;
      var r := Register(st, conn, o);
      && (r.trace == [Reply(conn, InvalidUserName), Close(conn)] <==>
            reg.clientID.value !in st.db.ids
            && (reg.userName in st.db.users || !Unclaimed(Interleave(st.db, o.rival), reg)))
      && (r.trace == [Reply(conn, InvalidUserName), Close(conn)] ==> r.trace != [Reply(conn, Approve), Close(conn)])
  {
    var reg := o.frame.value;
    RegisterScreens(st, conn, o);
    var r := Screen(st, conn, reg, o);
    if reg.clientID.value !in st.db.ids && reg.userName !in st.db.users {
      var e := Enroll(st, conn, reg, o);
      assert r == e;
      if !Unclaimed(Interleave(st.db, o.rival), reg) {
        assert e.trace == [Reply(conn, InvalidUserName), Close(conn)];
      }
    }
  }

  /** `APV` is sent exactly when every step succeeds, and then the store
      holds the user's row, with the display name trimmed, indexed by the
      client id, and a mailbox table for the user. */
  lemma RegisterApproves(st: State, conn: Conn, o: RegisterOracle)
    ensures var r := Register(st, conn, o);
      (r.trace == [Reply(conn, Approve), Close(conn)] <==>
        && Checked(o)
        && Unclaimed(Interleave(st.db, o.rival), o.frame.value)
        && !o.insertFails && !o.createFails)
    ensures var r := Register(st, conn, o);
      r.trace == [Reply(conn, Approve), Close(conn)] ==>
        var reg := o.frame.value;
        && reg.userName in r.state.db.users
        && r.state.db.users[reg.userName] == UserData(reg.clientID.value, TrimSpace(reg.name))
        && r.state.db.ids[reg.clientID.value] == reg.userName
        && reg.userName in r.state.db.mailboxes
  {
    if o.frame.Some? && ValidateRegistration(o.frame.value) && !o.checkIdFails {
      RegisterScreens(st, conn, o);
      ScreenApproves(st, conn, o.frame.value, o);
    }
  }

  /** Past validation, `APV` is sent exactly when the username check ran,
      nobody holds the id or the username, and both writes succeed. */
  lemma ScreenApproves(st: State, conn: Conn, reg: Registration, o: RegisterOracle)
    requires reg.clientID.Some?
    ensures Screen(st, conn, reg, o).trace == [Reply(conn, Approve), Close(conn)] <==>
      !o.checkNameFails && Unclaimed(Interleave(st.db, o.rival), reg) && !o.insertFails && !o.createFails
  {
    var seen := Interleave(st.db, o.rival);
    var t := Screen(st, conn, reg, o).trace;
    if !Unclaimed(st.db, reg) || o.checkNameFails {
      assert !Unclaimed(seen, reg) || o.checkNameFails;
      if |t| == 2 {
        assert t[0] != Reply(conn, Approve);
      }
    } else if !Unclaimed(seen, reg) || o.insertFails || o.createFails {
      if |t| == 2 {
        assert t[0] != Reply(conn, Approve);
      }
    }
  }

  /** The two steps are not atomic: when the table creation fails after the
      insert, the row stays, no `APV` is sent, and no mailbox is created. */
  lemma RegisterLeavesRow(st: State, conn: Conn, o: RegisterOracle)
    requires Checked(o) && Unclaimed(Interleave(st.db, o.rival), o.frame.value)
    requires !o.insertFails && o.createFails
    ensures var r := Register(st, conn, o);
      && r.trace == [Close(conn)]
      && o.frame.value.userName in r.state.db.users
      && r.state.db.mailboxes == st.db.mailboxes
  {
    var reg := o.frame.value;
    RegisterScreens(st, conn, o);
    assert Screen(st, conn, reg, o) == Enroll(st, conn, reg, o);
  }

  /** A registration that succeeds can authenticate right away: the
      credentials it registered are authentic in the store it leaves, and a
      handshake presenting them yields the username. */
  lemma RegisterThenAuthenticate(st: State, conn: Conn, o: RegisterOracle, conn2: Conn)
    requires Register(st, conn, o).trace == [Reply(conn, Approve), Close(conn)]
    ensures var reg := o.frame.value;
      var db := Register(st, conn, o).state.db;
      && Authentic(db, reg.Credentials())
      && CheckAuthentication(db, conn2, AuthOracle(Some(reg.Credentials()), false, false)).userName == reg.userName
  {
    RegisterApproves(st, conn, o);
    ValidRegistrationAuthenticates(o.frame.value);
    var db := Register(st, conn, o).state.db;
    var a := o.frame.value.Credentials();
    assert Authentic(db, a);
  }

  /** `CREATE TABLE IF NOT EXISTS` keeps a table left over from an earlier
      deletion whose `DROP TABLE` failed: a new user registering the same
      username inherits the old mailbox rows. */
  lemma RegisterKeepsLeftoverMailbox(st: State, conn: Conn, o: RegisterOracle)
    requires Checked(o) && Unclaimed(Interleave(st.db, o.rival), o.frame.value)
    requires !o.insertFails && !o.createFails
    requires o.frame.value.userName in st.db.mailboxes
    ensures var u := o.frame.value.userName;
      var r := Register(st, conn, o);
      && r.trace == [Reply(conn, Approve), Close(conn)]
      && r.state.db.mailboxes[u] == st.db.mailboxes[u]
  {
    var reg := o.frame.value;
    RegisterScreens(st, conn, o);
    assert reg.clientID.value !in st.db.ids && reg.userName !in st.db.users;
    var e := Enroll(st, conn, reg, o);
    assert Screen(st, conn, reg, o) == e;
  }
}

=== FILE: server.dfy ===
/** The server entry point: connect to the store (fatal on failure), start
    with an open gate and an empty registry, and route each websocket
    connection to its session handler after checking the gate. */
module Server {
  import opened Common
  import opened Store
  import opened Controller
  import opened MessengerHandler
  import opened RegisterHandler
  import opened DeleterHandler
  import opened Watcher

  /** The three websocket endpoints. */
  datatype Endpoint = MessagingEndpoint | RegistrationEndpoint | DeletionEndpoint

  /** The path each endpoint is mounted on. */
  function PathOf(e: Endpoint): (path: string)
    ensures Route(path) == Some(e)
  {
    match e
    case MessagingEndpoint => "/messaging"
    case RegistrationEndpoint => "/registration"
    case DeletionEndpoint => "/deletion"
  }

  /** The multiplexer: exact paths only; any other path reaches no
      endpoint. */
  function Route(path: string): (r: Option<Endpoint>)
  {
    if path == "/messaging" then Some(MessagingEndpoint)
    else if path == "/registration" then Some(RegistrationEndpoint)
    else if path == "/deletion" then Some(DeletionEndpoint)
    else None
  }

  /** Routing is exact: a path reaches an endpoint only when it is that
      endpoint's path. */
  lemma RouteExact(path: string)
    ensures Route(path).Some? ==> PathOf(Route(path).value) == path
    ensures Route(path).None? ==> forall e :: PathOf(e) != path
  {
  }

  /** The outcomes of the external calls of whichever session runs. */
  datatype SessionOracle = SessionOracle(messenger: MessengerOracle, register: RegisterOracle, deleter: DeleterOracle)

  /** The handler an endpoint runs. Whichever runs, a session never leaves
      a user online who was not online before it (a messaging session ends
      with its own user offline), and it keeps the two indexes of the user
      rows consistent. */
  function Handle(st: State, conn: Conn, e: Endpoint, o: SessionOracle): (r: Outcome)
    ensures SubRegistry(r.state.online, st.online)
    ensures Consistent(st.db) ==> Consistent(r.state.db)
  {
    match e
    case MessagingEndpoint => Messenger(st, conn, o.messenger)
    case RegistrationEndpoint => Register(st, conn, o.register)
    case DeletionEndpoint => Deleter(st, conn, o.deleter)
  }

  /** Every endpoint checks the gate first: when it is closed the
      connection is closed and no handler runs, so nothing else changes. */
  function Admit(gate: ProcessGate, st: State, conn: Conn, e: Endpoint, o: SessionOracle): (r: Outcome)
    ensures !PGateCheck(gate) ==> r == Outcome(st, [Close(conn)])
    ensures PGateCheck(gate) && e == MessagingEndpoint ==> r == Messenger(st, conn, o.messenger)
    ensures PGateCheck(gate) && e == RegistrationEndpoint ==> r == Register(st, conn, o.register)
    ensures PGateCheck(gate) && e == DeletionEndpoint ==> r == Deleter(st, conn, o.deleter)
  {
    if !PGateCheck(gate) then Outcome(st, [Close(conn)])
    else Handle(st, conn, e, o)
  }

  /** A connection on `path`: `None` when the path has no endpoint. */
  function Serve(gate: ProcessGate, st: State, conn: Conn, path: string, o: SessionOracle): (r: Option<Outcome>)
    ensures r.Some? <==> path in {"/messaging", "/registration", "/deletion"}
    ensures r.Some? ==> r.value == Admit(gate, st, conn, Route(path).value, o)
  {
    match Route(path)
    case None => None
    case Some(e) => Some(Admit(gate, st, conn, e, o))
  }

  /** The store connection as `CreateDBConnection` returns it: a handle, or
      an error, or, when the ping fails, neither. */
  datatype Connection = Connection(handle: Option<Store>, failed: bool)

  /** `CreateDBConnection`: an open failure is an error; a failed ping
      yields no handle and no error. */
  function CreateDBConnection(db: Store, openFails: bool, pingFails: bool): (c: Connection)
    ensures openFails ==> c == Connection(None, true)
    ensures !openFails && pingFails ==> c == Connection(None, false)
    ensures !openFails && !pingFails ==> c == Connection(Some(db), false)
  {
    if openFails then Connection(None, true)
    else if pingFails then Connection(None, false)
    else Connection(Some(db), false)
  }

  /** A server ready to accept connections. */
  datatype Running = Running(gate: ProcessGate, state: State)

  /** `main` up to serving: a connection error or a missing handle is
      fatal (`None`); otherwise the gate starts open and the registry
      empty. */
  function Startup(db: Store, openFails: bool, pingFails: bool): (r: Option<Running>)
    ensures r.Some? <==> !openFails && !pingFails
    ensures r.Some? ==> PGateCheck(r.value.gate) && r.value.state == State(map[], db)
  {
    var c := CreateDBConnection(db, openFails, pingFails);
    if c.failed || c.handle.None? then None
    else Some(Running(OpenGate, State(map[], c.handle.value)))
  }

  /** A started server admits its first connection on every endpoint. */
  lemma StartupAdmits(db: Store, conn: Conn, e: Endpoint, o: SessionOracle)
    requires Startup(db, false, false).Some?
    ensures var s := Startup(db, false, false).value;
      Admit(s.gate, s.state, conn, e, o) == Handle(s.state, conn, e, o)
  {
  }
}

=== FILE: store.dfy ===
/** The durable store the relay talks to, reduced to its data: the
    `tbl_users` rows (indexed both by username and by client id) and one
    mailbox table per user. Each operation gives the effect of a statement
    that succeeds; failures the database may report on its own (lost
    connection and the like) are decided by the callers' oracles. */
module Store {
  import opened Common
  import opened Wire

  /** A `tbl_users` row without the username key and the IP column. */
  datatype UserData = UserData(clientID: Bytes, name: Bytes)

  /** A mailbox row has the fields of a delivered message. */
  type MessageData = ClientReceiveMessage

  /** `users` maps each username to its row, `ids` maps each client id to
      the username of its row, and a user has a mailbox table exactly when
      `mailboxes` has the username as a key. */
  datatype Store = Store(
    users: map<Bytes, UserData>,
    ids: map<Bytes, Bytes>,
    mailboxes: map<Bytes, seq<MessageData>>)

  /** The two indexes describe the same set of rows. */
  predicate Consistent(s: Store) {
    && (forall id :: id in s.ids ==> s.ids[id] in s.users && s.users[s.ids[id]].clientID == id)
    && (forall u :: u in s.users ==> s.users[u].clientID in s.ids && s.ids[s.users[u].clientID] == u)
  }

  /** What `InsertUser` reports: success, a unique-key violation
      (MySQL error 1062), or any other error. */
  datatype InsertResult = Inserted | Duplicate | InsertFailed

  /** The client id → username lookup; `None` is the no-rows error. */
  function UserNameOf(s: Store, id: Bytes): (r: Option<Bytes>)
    ensures r.Some? <==> id in s.ids
    ensures r.Some? && Consistent(s) ==> r.value in s.users && s.users[r.value].clientID == id
  {
    if id in s.ids then Some(s.ids[id]) else None
  }

  /** Adds a user row. A username or client id already present violates a
      unique key and leaves the store unchanged; otherwise `fails` decides
      whether the statement goes through. The duplicate check comes first:
      a duplicate key is reported whatever `fails` says. */
  function InsertUser(s: Store, userName: Bytes, row: UserData, fails: bool): (r: (InsertResult, Store))
    ensures r.0 == Duplicate <==> userName in s.users || row.clientID in s.ids
    ensures r.0 != Inserted ==> r.1 == s
    ensures r.0 == Inserted ==>
      && r.1.users == s.users[userName := row]
      && r.1.ids == s.ids[row.clientID := userName]
      && r.1.mailboxes == s.mailboxes
    ensures Consistent(s) ==> Consistent(r.1)
  {
    if userName in s.users || row.clientID in s.ids then (Duplicate, s)
    else if fails then (InsertFailed, s)
    else (Inserted, s.(users := s.users[userName := row], ids := s.ids[row.clientID := userName]))
  }

  /** `CREATE TABLE IF NOT EXISTS`: an existing mailbox keeps its rows. */
  function CreateUserTable(s: Store, userName: Bytes): (r: Store)
    ensures userName in r.mailboxes
    ensures userName in s.mailboxes ==> r == s
    ensures userName !in s.mailboxes ==> r.mailboxes[userName] == []
    ensures r.users == s.users && r.ids == s.ids
    ensures Consistent(s) ==> Consistent(r)
    ensures forall u :: u != userName ==> (u in r.mailboxes <==> u in s.mailboxes)
    ensures forall u :: u != userName && u in s.mailboxes ==> r.mailboxes[u] == s.mailboxes[u]
  {
    if userName in s.mailboxes then s
    else s.(mailboxes := s.mailboxes[userName := []])
  }

  /** `InsertMessage`: appends a row to the user's mailbox; `None` when the
      user has no mailbox table. */
  function InsertMessage(s: Store, userName: Bytes, m: MessageData): (r: Option<Store>)
    ensures r.Some? <==> userName in s.mailboxes
    ensures r.Some? ==>
      && r.value.users == s.users && r.value.ids == s.ids
      && r.value.mailboxes == s.mailboxes[userName := s.mailboxes[userName] + [m]]
  {
    if userName in s.mailboxes
    then Some(s.(mailboxes := s.mailboxes[userName := s.mailboxes[userName] + [m]]))
    else None
  }

  /** The mailbox rows; the database promises no order, and the model
      lists them as stored. `None` when the table is missing. */
  function GetMessages(s: Store, userName: Bytes): (r: Option<seq<MessageData>>)
    ensures r.Some? <==> userName in s.mailboxes
    ensures r.Some? ==> multiset(r.value) == multiset(s.mailboxes[userName])
  {
    if userName in s.mailboxes then Some(s.mailboxes[userName]) else None
  }

  /** The rows of `box` that differ from `m`, in order. */
  function Without(box: seq<MessageData>, m: MessageData): (r: seq<MessageData>)
    ensures |r| <= |box|
  {
    if box == [] then []
    else if box[0] == m then Without(box[1..], m)
    else [box[0]] + Without(box[1..], m)
  }

  /** `Without` keeps every row but those equal to `m`, each other row with
      all its copies. */
  lemma {:induction false} WithoutMembers(box: seq<MessageData>, m: MessageData)
    ensures forall x :: x in Without(box, m) <==> x in box && x != m
    ensures multiset(Without(box, m)) == multiset(box)[m := 0]
  {
    if box != [] {
      WithoutMembers(box[1..], m);
      assert box == [box[0]] + box[1..];
    }
  }

  /** `DeleteMessage`: removes EVERY row equal to `m` on all three fields;
      `None` when the table is missing. */
  function DeleteMessage(s: Store, userName: Bytes, m: MessageData): (r: Option<Store>)
    ensures r.Some? <==> userName in s.mailboxes
    ensures r.Some? ==>
      && r.value.users == s.users && r.value.ids == s.ids
      && r.value.mailboxes == s.mailboxes[userName := Without(s.mailboxes[userName], m)]
  {
    if userName in s.mailboxes
    then Some(s.(mailboxes := s.mailboxes[userName := Without(s.mailboxes[userName], m)]))
    else None
  }

  /** `DELETE FROM tbl_users WHERE userName = ?`: removes the user's row
      from both indexes; deleting an absent user changes nothing. */
  function DeleteUserRow(s: Store, userName: Bytes): (r: Store)
    ensures Consistent(s) ==> Consistent(r)
    ensures r.users == s.users - {userName}
    ensures r.mailboxes == s.mailboxes
    ensures forall id :: id in r.ids <==> id in s.ids && s.ids[id] != userName
    ensures forall id :: id in r.ids ==> r.ids[id] == s.ids[id]
  {
    s.(users := s.users - {userName},
       ids := map id | id in s.ids && s.ids[id] != userName :: s.ids[id])
  }

  /** What `DeleteUserAndTable` did: both statements, only the row delete
      (the `DROP TABLE` failed), or nothing. */
  datatype DeleteResult = Deleted | RowOnly | NothingDeleted

  /** `DeleteUserAndTable`: two statements, not atomic. `rowFails` and
      `dropFails` are the database's own failures; dropping a missing table
      fails too. */
  function DeleteUserAndTable(s: Store, userName: Bytes, rowFails: bool, dropFails: bool): (r: (DeleteResult, Store))
    ensures Consistent(s) ==> Consistent(r.1)
    ensures r.0 == NothingDeleted <==> rowFails
    ensures r.0 == NothingDeleted ==> r.1 == s
    ensures r.0 != NothingDeleted ==> userName !in r.1.users && r.1.users == s.users - {userName}
    ensures r.0 == Deleted <==> !rowFails && !dropFails && userName in s.mailboxes
    ensures r.0 == Deleted ==> r.1.mailboxes == s.mailboxes - {userName}
    ensures r.0 == RowOnly ==> r.1.mailboxes == s.mailboxes
  {
    if rowFails then (NothingDeleted, s)
    else
      var s1 := DeleteUserRow(s, userName);
      if dropFails || userName !in s1.mailboxes then (RowOnly, s1)
      else (Deleted, s1.(mailboxes := s1.mailboxes - {userName}))
  }
}

=== FILE: text.dfy ===
/** Whitespace trimming over byte strings, as `strings.TrimSpace` does it
    for ASCII input. */
module Text {
  import opened Common

  /** The byte Go's `strings.Contains(s, " ")` looks for. */
  const Space: byte := 0x20

  /** Go's ASCII whitespace set: tab, newline, vertical tab, form feed,
      carriage return and space. */
  predicate IsSpace(b: byte) {
    b == 0x09 || b == 0x0A || b == 0x0B || b == 0x0C || b == 0x0D || b == 0x20
  }

  predicate AllSpace(s: Bytes) {
    forall i :: 0 <= i < |s| ==> IsSpace(s[i])
  }

  /** The forward scan of `strings.TrimSpace`: the first index at or after
      `i` that holds no whitespace, or `|s|`. */
  function TrimStart(s: Bytes, i: nat): (start: nat)
    requires i <= |s|
    decreases |s| - i
    ensures i <= start <= |s|
    ensures forall j :: i <= j < start ==> IsSpace(s[j])
    ensures start < |s| ==> !IsSpace(s[start])
  {
    if i == |s| || !IsSpace(s[i]) then i else TrimStart(s, i + 1)
  }

  /** The backward scan of `strings.TrimSpace`: from `stop` down, never
      below `start`, to just past the last byte that is not whitespace. */
  function TrimStop(s: Bytes, start: nat, stop: nat): (r: nat)
    requires start <= stop <= |s|
    decreases stop
    ensures start <= r <= stop
    ensures forall j :: r <= j < stop ==> IsSpace(s[j])
    ensures start < r ==> !IsSpace(s[r - 1])
  {
    if stop == start || !IsSpace(s[stop - 1]) then stop else TrimStop(s, start, stop - 1)
  }

  /** `strings.TrimSpace`: the bytes between the two scans. */
  function TrimSpace(s: Bytes): (r: Bytes)
    ensures |r| <= |s|
    ensures r != [] ==> !IsSpace(r[0]) && !IsSpace(r[|r| - 1])
  {
    var start := TrimStart(s, 0);
    s[start..TrimStop(s, start, |s|)]
  }

  /** The trim is the infix of `s` that starts after the leading
      whitespace, and everything around it in `s` is whitespace. */
  lemma TrimSpaceInfix(s: Bytes)
    ensures var k := TrimStart(s, 0);
      var r := TrimSpace(s);
      && k + |r| <= |s|
      && r == s[k..k + |r|]
      && AllSpace(s[..k])
      && AllSpace(s[k + |r|..])
  {
    var k := TrimStart(s, 0);
    var stop := TrimStop(s, k, |s|);
    forall i | 0 <= i < |s[stop..]|
      ensures IsSpace(s[stop..][i])
    {
      assert s[stop..][i] == s[stop + i];
    }
  }

  /** The trim is empty exactly when the input is all whitespace. */
  lemma TrimSpaceEmptyIffAllSpace(s: Bytes)
    ensures TrimSpace(s) == [] <==> AllSpace(s)
  {
    var k := TrimStart(s, 0);
    if TrimStop(s, k, |s|) != k {
      assert !IsSpace(s[k]);
    }
  }

  /** Trimming twice is trimming once. */
  lemma TrimSpaceIdempotent(s: Bytes)
    ensures TrimSpace(TrimSpace(s)) == TrimSpace(s)
  {
    TrimSpaceFixesTrimmed(TrimSpace(s));
  }

  /** A string with no whitespace at either end is its own trim. */
  lemma TrimSpaceFixesTrimmed(s: Bytes)
    requires s != [] ==> !IsSpace(s[0]) && !IsSpace(s[|s| - 1])
    ensures TrimSpace(s) == s
  {
    assert s[0..|s|] == s;
  }
}

=== FILE: watcher.dfy ===
/** The supervisor: a one-way admission gate, closed when the store stops
    answering pings, after which the process waits for the registry to
    drain. Sleeps, the exit and the printing are left out; a run is
    described by the sequence of ping outcomes it observes. */
module Watcher {
  import opened Controller

  /** `processGate`: whether new sessions are admitted. */
  datatype ProcessGate = ProcessGate(isGateOpen: bool)

  /** The gate every server starts with. */
  const OpenGate := ProcessGate(true)

  /** `pGateCheck`: reports the flag, open as true. */
  function PGateCheck(gate: ProcessGate): (open: bool)
    ensures open <==> gate.isGateOpen
  {
    if !gate.isGateOpen then false else true
  }

  /** The only write the program ever makes to the gate. */
  function CloseGate(gate: ProcessGate): (r: ProcessGate)
    ensures !PGateCheck(r)
  {
    gate.(isGateOpen := false)
  }

  /** The gate after a history of writes; `writes[j]` says whether the
      `j`-th step writes the flag (always to false). */
  function GateAfter(gate: ProcessGate, writes: seq<bool>): (r: ProcessGate)
    decreases |writes|
  {
    if writes == [] then gate
    else GateAfter(if writes[0] then CloseGate(gate) else gate, writes[1..])
  }

  /** The gate is one-way: it is open after a history exactly when it was
      open before and nothing was written, so a closed gate never reopens. */
  lemma {:induction false} GateOneWay(gate: ProcessGate, writes: seq<bool>)
    decreases |writes|
    ensures PGateCheck(GateAfter(gate, writes)) <==> PGateCheck(gate) && true !in writes
  {
    if writes != [] {
      var next := if writes[0] then CloseGate(gate) else gate;
      GateOneWay(next, writes[1..]);
      assert writes == [writes[0]] + writes[1..];
    }
  }

  /** Ping `k` of a run fails. */
  predicate Fails(ping: nat -> bool, k: nat) {
    !ping(k)
  }

  /** Pings `a` to `a + 3` all fail. */
  predicate FourFailsAt(ping: nat -> bool, a: nat) {
    Fails(ping, a) && Fails(ping, a + 1) && Fails(ping, a + 2) && Fails(ping, a + 3)
  }

  /** `disconnectVerifier`: up to three more pings from `start` on;
      `ping(k)` is true when ping `k` succeeds. It gives up at the first
      success and confirms the disconnection only when all three fail.
      `used` is the number of pings it made. */
  method DisconnectVerifier(ping: nat -> bool, start: nat) returns (confirmed: bool, used: nat)
    ensures confirmed <==> Fails(ping, start) && Fails(ping, start + 1) && Fails(ping, start + 2)
    ensures confirmed ==> used == 3
    ensures !confirmed ==> 1 <= used <= 3 && ping(start + used - 1)
    ensures forall k :: start <= k < start + used - 1 ==> Fails(ping, k)
  {
    var i := 0;
    while i < 3
      invariant 0 <= i <= 3
      invariant forall k :: start <= k < start + i ==> Fails(ping, k)
    {
      if ping(start + i) {
        return false, i + 1;
      }
      i := i + 1;
    }
    assert Fails(ping, start) && Fails(ping, start + 1) && Fails(ping, start + 2);
    return true, 3;
  }

  /** `dbConnWatcher` for `rounds` rounds, from an open gate. Each round
      pings once; a failure is followed by `disconnectVerifier`, and a
      confirmed disconnection closes the gate and ends the loop. The gate
      closes exactly at the first place where four consecutive pings fail;
      while it stays open, no four consecutive pings among those made
      failed. */
  method DbConnWatcher(ping: nat -> bool, rounds: nat) returns (gate: ProcessGate, used: nat)
    ensures !PGateCheck(gate) ==>
      && used >= 4 && FourFailsAt(ping, used - 4)
      && (forall a :: 0 <= a < used - 4 ==> !FourFailsAt(ping, a))
    ensures PGateCheck(gate) ==>
      && used >= rounds
      && (used == 0 || ping(used - 1))
      && (forall a :: 0 <= a < used ==> !FourFailsAt(ping, a))
  {
    gate := OpenGate;
    used := 0;
    var round := 0;
    while round < rounds
      invariant gate == OpenGate
      invariant round <= used
      invariant used == 0 || ping(used - 1)
      invariant forall a :: 0 <= a < used ==> !FourFailsAt(ping, a)
    {
      if !ping(used) {
        var confirmed, extra := DisconnectVerifier(ping, used + 1);
        if confirmed {
          assert FourFailsAt(ping, used);
          gate := CloseGate(gate);
          used := used + 4;
          return;
        }
        forall a | used <= a < used + 1 + extra
          ensures !FourFailsAt(ping, a)
        {
          assert a <= used + extra <= a + 3;
        }
        used := used + 1 + extra;
      } else {
        used := used + 1;
      }
      round := round + 1;
    }
  }

  /** `waitToEmptyOnlineClients` over the registries it observes, one per
      poll, each measured with `OnlineClientsLen`: it returns at the first
      poll that sees an empty registry, in which nobody is online, and never
      returns while every registry seen is non-empty. */
  method WaitToEmptyOnlineClients(observed: seq<Online>) returns (drained: bool, polls: nat)
    ensures polls <= |observed|
    ensures drained <==> exists j :: 0 <= j < |observed| && OnlineClientsLen(observed[j]) == 0
    ensures drained ==>
      && 1 <= polls <= |observed|
      && OnlineClientsLen(observed[polls - 1]) == 0
      && observed[polls - 1] == map[]
    ensures forall j :: 0 <= j < polls - 1 ==> OnlineClientsLen(observed[j]) != 0
    ensures !drained ==> polls == |observed|
  {
    polls := 0;
    while polls < |observed|
      invariant polls <= |observed|
      invariant forall j :: 0 <= j < polls ==> OnlineClientsLen(observed[j]) != 0
    {
      if OnlineClientsLen(observed[polls]) == 0 {
        EmptyRegistryNobodyOnline(observed[polls]);
        assert observed[polls].Keys == {};
        return true, polls + 1;
      }
      polls := polls + 1;
    }
    return false, polls;
  }

  /** The supervisor goroutine end to end: watch the store; once the gate
      is closed, wait for the registry to drain, then exit. It exits only
      with the gate closed and after seeing a registry with nobody in it. */
  method Supervise(ping: nat -> bool, rounds: nat, observed: seq<Online>) returns (gate: ProcessGate, exited: bool)
    ensures exited <==> !PGateCheck(gate) && exists j :: 0 <= j < |observed| && OnlineClientsLen(observed[j]) == 0
    ensures !PGateCheck(gate) ==> exists a :: FourFailsAt(ping, a)
  {
    var used;
    gate, used := DbConnWatcher(ping, rounds);
    if PGateCheck(gate) {
      exited := false;
    } else {
      var polls;
      exited, polls := WaitToEmptyOnlineClients(observed);
    }
  }
}

=== FILE: wire.dfy ===
/** The relay's wire records: the six response flags and the JSON structures
    clients and server exchange. */
module Wire {
  import opened Common

  /** The response flags, the only acknowledgement vocabulary of all three
      session types. */
  datatype Flag =
    | Received         // the message was processed for one recipient
    | Approve          // the operation succeeded
    | InvalidUserName  // the username is taken
    | NoSuchUser       // a recipient is not registered
    | AlreadyReg       // the client id is already registered
    | InvalidAuth      // the credentials do not match a stored identity

  /** The three-letter code a flag travels as. */
  function Code(f: Flag): (c: string)
    ensures |c| == 3
    ensures FlagOfCode(c) == Some(f)
  {
    match f
    case Received => "RCV"
    case Approve => "APV"
    case InvalidUserName => "IUN"
    case NoSuchUser => "NSU"
    case AlreadyReg => "ART"
    case InvalidAuth => "IAT"
  }

  /** Reads a code back as a flag; every other string names no flag. */
  function FlagOfCode(c: string): (r: Option<Flag>)
  {
    if c == "RCV" then Some(Received)
    else if c == "APV" then Some(Approve)
    else if c == "IUN" then Some(InvalidUserName)
    else if c == "NSU" then Some(NoSuchUser)
    else if c == "ART" then Some(AlreadyReg)
    else if c == "IAT" then Some(InvalidAuth)
    else None
  }

  /** No two flags share a code. */
  lemma CodesDistinct(f: Flag, g: Flag)
    requires f != g
    ensures Code(f) != Code(g)
  {
    assert FlagOfCode(Code(f)) == Some(f);
    assert FlagOfCode(Code(g)) == Some(g);
  }

  /** The server's acknowledgement frame: one flag value. */
  datatype Response = Response(value: Flag)

  /** The frame a client opens a messaging or deletion session with. A
      `None` client id is a JSON null or absent field (a nil slice). */
  datatype Authentication = Authentication(clientID: Option<Bytes>, userName: Bytes)

  /** The frame a client registers with: the authentication fields plus a
      display name. */
  datatype Registration = Registration(clientID: Option<Bytes>, userName: Bytes, name: Bytes)
  {
    /** The credential part of the registration. */
    function Credentials(): (a: Authentication)
      ensures WithName(a, name) == this
    {
      Authentication(clientID, userName)
    }
  }

  /** Extends credentials with a display name. */
  function WithName(a: Authentication, name: Bytes): (r: Registration)
  {
    Registration(a.clientID, a.userName, name)
  }

  /** A message as a client sends it. `to` is `None` for a nil recipient
      list (absent or null in the JSON), which differs from an empty one. */
  datatype ClientSendMessage = ClientSendMessage(timeStamp: Time, text: Bytes, sender: Bytes, to: Option<seq<Bytes>>)

  /** A message as a recipient receives it; mailbox rows have the same
      three fields. */
  datatype ClientReceiveMessage = ClientReceiveMessage(timeStamp: Time, text: Bytes, sender: Bytes)

  /** What the relay forwards for a sent message: everything but `to`. */
  function Forwarded(m: ClientSendMessage): (r: ClientReceiveMessage)
    ensures Addressed(r, m.to) == m
  {
    ClientReceiveMessage(m.timeStamp, m.text, m.sender)
  }

  /** Attaches a recipient list to a received message. */
  function Addressed(r: ClientReceiveMessage, to: Option<seq<Bytes>>): (m: ClientSendMessage)
  {
    ClientSendMessage(r.timeStamp, r.text, r.sender, to)
  }

  /** Adding a name and taking the credentials back gives the credentials. */
  lemma WithNameCredentials(a: Authentication, name: Bytes)
    ensures WithName(a, name).Credentials() == a
    ensures WithName(a, name).name == name
  {
  }

  /** Addressing a received message and forwarding it gives it back. */
  lemma AddressedForwarded(r: ClientReceiveMessage, to: Option<seq<Bytes>>)
    ensures Forwarded(Addressed(r, to)) == r
    ensures Addressed(r, to).to == to
  {
  }
}
